=== FILE: README.md ===
# Singleton registry model

This project models `DefaultSingletonBeanRegistry` in Dafny. That class is the
shared-bean registry underneath Spring's bean factories. The whole registry
state is one immutable `Registry` record, and every public or protected
operation is a pure transition on that record.

The state has three groups of fields:

- **The three-tier instance cache:**
  - `singletonObjects`: full instances
  - `earlySingletonObjects`: early references, exposed while a bean is still
    being created
  - `singletonFactories`: staged factories that produce early references on
    demand
  - `registeredSingletons`: the registration-order index
- **The creation bookkeeping:**
  - `singletonsCurrentlyInCreation`, and the names excluded from the in-creation
    check
  - the bounded, optional collection of suppressed exceptions
  - the flag for the destruction phase
- **The teardown data:**
  - the disposable beans, in registration order
  - the containment graph and the two-way dependency graph

`LinkedHashSet` values and the key order of the `LinkedHashMap` are duplicate-free
sequences (module `Ordered`). Hash maps are Dafny maps. Java exceptions become
values:

- `Result` when the failing call changes nothing
- `Step(reg, out)` when it throws after changing state, as
  `getSingleton(beanName, singletonFactory)` can

A factory passed to `getSingleton(beanName, singletonFactory)` is a function from
the registry it runs in to the registry it leaves behind and how it ended
(`Created`, an `IllegalStateException`, a `BeanCreationException`, or anything
else). Nested registry calls during creation are therefore part of that
function. A staged early factory is invoked through a `getObject` parameter.

Teardown does not run `DisposableBean.destroy()`. Each call it would make is
appended to a log that `Teardown.Disposal` returns next to the final registry.
The destruction-order properties are statements about positions in that log.

Modules:

| module | file | contents |
|---|---|---|
| `Wrappers` | `wrappers.dfy` | `Option`, `Result` |
| `Ordered` | `ordered.dfy` | insertion-ordered sets as duplicate-free sequences |
| `RegistryState` | `state.dfy` | the record, its invariants (`CacheValid`, `SuppressedValid`, `DisposalValid`, `GraphValid`, `Valid`) |
| `InstanceCache` | `cache.dfy` | the three-tier cache |
| `CreationCoordinator` | `creation.dfy` | the creation coordinator |
| `DependencyGraph` | `graph.dfy` | dependency and containment registration, `isDependent` |
| `Teardown` | `teardown.dfy` | disposable registration and teardown |

`destroyBean` recurses into `destroySingleton` of each dependent and each
contained bean. This recursion terminates because each level first removes the
current bean's `dependentBeanMap` or `containedBeanMap` entry. The decreasing
measure is therefore the number of keys in those two maps (`GraphSize`).

All source paths below are under
`spring-beans/src/main/java/org/springframework/beans/factory/support/`, in
`DefaultSingletonBeanRegistry.java`.

## Model

| member | source | states |
|---|---|---|
| RegistryState.EmptyValid | spring-beans/src/main/java/org/springframework/beans/factory/support/DefaultSingletonBeanRegistry.java:88-160 | a freshly constructed registry, with every map, set and flag empty, satisfies every invariant of the model |
| InstanceCache.AddSingleton | spring-beans/src/main/java/org/springframework/beans/factory/support/DefaultSingletonBeanRegistry.java:193-204 | the name is bound to the given full instance and has no early instance or factory; the index gains the name once; every other name keeps its entries; bookkeeping and graph are untouched; the cache invariant is kept |
| InstanceCache.BindKeepsCache | spring-beans/src/main/java/org/springframework/beans/factory/support/DefaultSingletonBeanRegistry.java:193-204 | the four tier updates of `addSingleton` keep tier exclusivity and the index in step with the tiers |
| InstanceCache.RegisterSingleton | spring-beans/src/main/java/org/springframework/beans/factory/support/DefaultSingletonBeanRegistry.java:167-183 | a name with a full instance is refused with that instance reported and the state unchanged; otherwise the name is bound to the object, leaves the early and staged tiers and is appended to the end of the registration index once, and every other name and field is unchanged |
| InstanceCache.AddSingletonFactory | spring-beans/src/main/java/org/springframework/beans/factory/support/DefaultSingletonBeanRegistry.java:216-230 | a no-op when a full instance exists; otherwise the factory is staged, any early instance discarded, the index gains the name once, other names are untouched, and the cache invariant is kept |
| InstanceCache.StageKeepsCache | spring-beans/src/main/java/org/springframework/beans/factory/support/DefaultSingletonBeanRegistry.java:216-230 | staging a factory for a name without a full instance keeps the tier invariant |
| InstanceCache.GetSingleton | spring-beans/src/main/java/org/springframework/beans/factory/support/DefaultSingletonBeanRegistry.java:253-289 | the full instance when present; nothing and no change for a name not in creation; the early instance for a name in creation; the staged factory runs exactly when the name is in creation, has neither a full nor an early instance, early references are allowed and a factory is staged, and then its product becomes the early instance and the factory is removed; an empty answer happens only in those cases; the cache invariant is kept |
| InstanceCache.PromoteKeepsCache | spring-beans/src/main/java/org/springframework/beans/factory/support/DefaultSingletonBeanRegistry.java:271-283 | moving a staged factory's product into the early tier keeps the tier invariant |
| InstanceCache.RemoveSingleton | spring-beans/src/main/java/org/springframework/beans/factory/support/DefaultSingletonBeanRegistry.java:415-427 | the name leaves all three tiers and the index; the tiers only shrink; other names, bookkeeping and graph are untouched; the cache invariant is kept |
| InstanceCache.EvictKeepsCache | spring-beans/src/main/java/org/springframework/beans/factory/support/DefaultSingletonBeanRegistry.java:415-427 | evicting a name from all tiers and the index keeps the tier invariant |
| InstanceCache.GetSingletonNames | spring-beans/src/main/java/org/springframework/beans/factory/support/DefaultSingletonBeanRegistry.java:438-442 | under the cache invariant, the names are distinct and are exactly those present in some tier |
| InstanceCache.GetSingletonCount | spring-beans/src/main/java/org/springframework/beans/factory/support/DefaultSingletonBeanRegistry.java:445-449 | under the cache invariant, the size of the index equals the number of distinct names held in the three tiers |
| InstanceCache.RegisteredCount | spring-beans/src/main/java/org/springframework/beans/factory/support/DefaultSingletonBeanRegistry.java:445-449 | the index holds one position per name in some tier |
| InstanceCache.RegisterThenLookup | spring-beans/src/main/java/org/springframework/beans/factory/support/DefaultSingletonBeanRegistry.java:167-183 | after registering a free name, the name is contained, every lookup returns the registered instance and runs no factory, and a second registration is refused with the first instance reported |
| InstanceCache.EarlyReferenceStable | spring-beans/src/main/java/org/springframework/beans/factory/support/DefaultSingletonBeanRegistry.java:253-289 | once a staged factory has produced an early reference, a later lookup returns that same reference without running any factory |
| CreationCoordinator.SetCurrentlyInCreation | spring-beans/src/main/java/org/springframework/beans/factory/support/DefaultSingletonBeanRegistry.java:452-460 | afterwards the name is excluded from the in-creation check exactly when `inCreation` is false, and counts as in creation exactly when `inCreation` is set and it is marked; the exclusions of other names and every other field are unchanged |
| CreationCoordinator.BeforeSingletonCreation | spring-beans/src/main/java/org/springframework/beans/factory/support/DefaultSingletonBeanRegistry.java:502-511 | fails with the currently-in-creation fault exactly when the name is in creation and not excluded; an excluded name changes nothing; otherwise the name is added to the marked set and nothing else changes |
| CreationCoordinator.AfterSingletonCreation | spring-beans/src/main/java/org/springframework/beans/factory/support/DefaultSingletonBeanRegistry.java:522-531 | fails with the not-in-creation fault exactly when the name is neither excluded nor marked; an excluded name changes nothing; otherwise the name is unmarked and nothing else changes |
| CreationCoordinator.ExcludedPassesCreationCheck | spring-beans/src/main/java/org/springframework/beans/factory/support/DefaultSingletonBeanRegistry.java:452-531 | a name excluded through `setCurrentlyInCreation(n, false)` passes both the marking and the unmarking with the registry returned as it was, the set of names in creation is untouched, and the name does not count as in creation |
| CreationCoordinator.BeforeAfterRoundTrip | spring-beans/src/main/java/org/springframework/beans/factory/support/DefaultSingletonBeanRegistry.java:502-531 | for a name not currently in creation, marking then unmarking both succeed, restore the marked set, and leave the name not in creation |
| CreationCoordinator.OnSuppressedException | spring-beans/src/main/java/org/springframework/beans/factory/support/DefaultSingletonBeanRegistry.java:396-405 | while a collection is open and below the limit of 100 the exception joins it once; a full or absent collection is left alone; nothing else changes; the bound is kept |
| CreationCoordinator.SuppressAllBounded | spring-beans/src/main/java/org/springframework/beans/factory/support/DefaultSingletonBeanRegistry.java:396-405 | however many exceptions are reported, the collection stays distinct and never exceeds 100 entries, and is open exactly when it was |
| CreationCoordinator.SuppressAllKeepsOldest | spring-beans/src/main/java/org/springframework/beans/factory/support/DefaultSingletonBeanRegistry.java:396-405 | with distinct exceptions the collection ends as the first 100 of those already held followed by those reported, in order |
| CreationCoordinator.StaysFull | spring-beans/src/main/java/org/springframework/beans/factory/support/DefaultSingletonBeanRegistry.java:397-401 | a collection at the limit accepts nothing more |
| CreationCoordinator.CreationEntry | spring-beans/src/main/java/org/springframework/beans/factory/support/DefaultSingletonBeanRegistry.java:321-330 | the factory runs with the set of names in creation grown by exactly the name, or unchanged for an excluded name, and with a collection open: a fresh empty one when none was open, otherwise the caller's; the exclusions, the destruction flag, cache and graph are untouched; the invariant is kept |
| CreationCoordinator.CatchOutcome | spring-beans/src/main/java/org/springframework/beans/factory/support/DefaultSingletonBeanRegistry.java:331-362 | a created object is a new singleton; an `IllegalStateException` is recovered only when a full instance has appeared meanwhile, and rethrown otherwise; a `BeanCreationException` gets the collected exceptions as related causes only in the call that opened the collection; any other exception propagates |
| CreationCoordinator.FinishCreation | spring-beans/src/main/java/org/springframework/beans/factory/support/DefaultSingletonBeanRegistry.java:363-379 | the name ends unmarked unless excluded; a collection opened by this call is closed, one inherited is left alone; if the name was not marked, the not-in-creation fault replaces the outcome; otherwise a new object is bound as a full instance and its name appended once to the end of the registration index, and every other outcome leaves the name's cache entries as the factory left them; other names and the graph are untouched |
| CreationCoordinator.FinishCreationValid | spring-beans/src/main/java/org/springframework/beans/factory/support/DefaultSingletonBeanRegistry.java:363-379 | the finishing steps keep the whole registry invariant |
| CreationCoordinator.GetOrCreate | spring-beans/src/main/java/org/springframework/beans/factory/support/DefaultSingletonBeanRegistry.java:301-383 | an existing full instance is returned without running the factory; creation is refused during destruction and for a name already in creation and not excluded; past those checks, the outcome and state are those of the factory's run followed by the finishing steps, with the per-outcome results listed for `FinishCreation`, a new object's name appended once to the end of the index the factory left |
| CreationCoordinator.GetOrCreateValid | spring-beans/src/main/java/org/springframework/beans/factory/support/DefaultSingletonBeanRegistry.java:301-383 | the registry invariant holds after the call whenever it held before and the factory's run kept it |
| DependencyGraph.RegisterDependentBean | spring-beans/src/main/java/org/springframework/beans/factory/support/DefaultSingletonBeanRegistry.java:587-609 | an existing edge changes nothing; a new one is appended to the bean's dependent set and inserted into the dependent's dependency set; every other set, the cache, the bookkeeping and the disposables are untouched; under mirroring, the reverse edge is present |
| DependencyGraph.RegisterDependentBeanKeepsValid | spring-beans/src/main/java/org/springframework/beans/factory/support/DefaultSingletonBeanRegistry.java:587-609 | the graph sets stay non-empty and duplicate-free, and every dependent edge stays mirrored by a dependency edge |
| DependencyGraph.AddEdgeMirrored | spring-beans/src/main/java/org/springframework/beans/factory/support/DefaultSingletonBeanRegistry.java:594-607 | adding both directions of an edge keeps every dependent edge mirrored |
| DependencyGraph.RegisterDependentBeanIdempotent | spring-beans/src/main/java/org/springframework/beans/factory/support/DefaultSingletonBeanRegistry.java:594-599 | registering the same dependency twice equals registering it once |
| DependencyGraph.RegisterContainedBean | spring-beans/src/main/java/org/springframework/beans/factory/support/DefaultSingletonBeanRegistry.java:564-577 | an existing containment changes nothing; a new one is appended to the containing bean's set and, only then, registers the containing bean as a dependent of the contained one; other sets and the rest of the state are untouched |
| DependencyGraph.RegisterContainedBeanKeepsValid | spring-beans/src/main/java/org/springframework/beans/factory/support/DefaultSingletonBeanRegistry.java:564-577 | containment registration keeps the graph invariant |
| DependencyGraph.HasDependentBeanIffDependents | spring-beans/src/main/java/org/springframework/beans/factory/support/DefaultSingletonBeanRegistry.java:670-672 | with proper dependent sets, a bean has a dependent entry exactly when `getDependentBeans` is non-empty |
| DependencyGraph.GetDependentBeans | spring-beans/src/main/java/org/springframework/beans/factory/support/DefaultSingletonBeanRegistry.java:681-693 | under the graph invariant the snapshot is duplicate-free, and the bean is among the dependencies of each listed dependent |
| DependencyGraph.GetDependenciesForBean | spring-beans/src/main/java/org/springframework/beans/factory/support/DefaultSingletonBeanRegistry.java:703-719 | under the graph invariant the snapshot is duplicate-free; with the two maps mirrored, it lists every bean that has `n` among its dependents |
| DependencyGraph.RegisterThenDependencies | spring-beans/src/main/java/org/springframework/beans/factory/support/DefaultSingletonBeanRegistry.java:587-609 | after registering `b` as a dependent of `a`, `b` is among the dependents of `a` and `a` among the dependencies of `b` |
| DependencyGraph.DependsSearch | spring-beans/src/main/java/org/springframework/beans/factory/support/DefaultSingletonBeanRegistry.java:630-662 | the search terminates on every graph, cycles included, and the seen set only grows |
| DependencyGraph.DependsLoop | spring-beans/src/main/java/org/springframework/beans/factory/support/DefaultSingletonBeanRegistry.java:648-659 | the loop over the dependents only grows the seen set and marks the expanded bean as seen |
| DependencyGraph.SearchSound | spring-beans/src/main/java/org/springframework/beans/factory/support/DefaultSingletonBeanRegistry.java:630-662 | a positive answer comes with a path of dependent edges from the bean to the dependent |
| DependencyGraph.SearchClosed | spring-beans/src/main/java/org/springframework/beans/factory/support/DefaultSingletonBeanRegistry.java:630-662 | after a negative answer, every bean the search marked as seen has been fully explored without meeting the dependent |
| DependencyGraph.SearchComplete | spring-beans/src/main/java/org/springframework/beans/factory/support/DefaultSingletonBeanRegistry.java:630-662 | a negative answer from an empty seen set means there is no path to the dependent |
| DependencyGraph.IsDependent | spring-beans/src/main/java/org/springframework/beans/factory/support/DefaultSingletonBeanRegistry.java:620-625 | true exactly when the dependent is reachable from the bean along one or more dependent edges |
| Teardown.RegisterDisposableBean | spring-beans/src/main/java/org/springframework/beans/factory/support/DefaultSingletonBeanRegistry.java:545-551 | the name is bound to the disposable; a re-registered name keeps its first position in the order, and a new one is appended; other disposables, the cache, the bookkeeping and the graph are untouched |
| Teardown.ClearSingletonCache | spring-beans/src/main/java/org/springframework/beans/factory/support/DefaultSingletonBeanRegistry.java:763-777 | the three tiers and the index are empty and the destruction phase is over; the remaining bookkeeping, disposables and graph are untouched |
| Teardown.Scrub | spring-beans/src/main/java/org/springframework/beans/factory/support/DefaultSingletonBeanRegistry.java:878-891 | the bean is removed from every dependent set; a set is dropped exactly when nothing else was in it; proper sets stay proper and the map does not grow |
| Teardown.ScrubBean | spring-beans/src/main/java/org/springframework/beans/factory/support/DefaultSingletonBeanRegistry.java:878-898 | the bean is in no dependent set and has no dependency entry; every other dependency entry is unchanged and every other edge of a dependent set survives; the cache, disposables and containment are untouched; the step only removes |
| Teardown.ScrubBeanKeeps | spring-beans/src/main/java/org/springframework/beans/factory/support/DefaultSingletonBeanRegistry.java:878-898 | scrubbing keeps the cache invariant and the dependent sets proper |
| Teardown.DetachSingleton | spring-beans/src/main/java/org/springframework/beans/factory/support/DefaultSingletonBeanRegistry.java:787-803 | the name leaves the tiers and loses its disposable; every other name keeps its tier entries and its disposable; the graph and the invariants are kept |
| Teardown.DestroySingleton | spring-beans/src/main/java/org/springframework/beans/factory/support/DefaultSingletonBeanRegistry.java:787-806 | the step only removes; the log lists, once each, exactly the disposables it took away; the name ends with no tier entry and no disposable, and is logged exactly when it had a disposable; it has no graph entry, is nobody's dependent, and every bean it contained is destroyed |
| Teardown.DestroyBean | spring-beans/src/main/java/org/springframework/beans/factory/support/DefaultSingletonBeanRegistry.java:816-899 | the step only removes; the bean is scrubbed from the graph and its contained beans destroyed; for a bean whose disposable is already detached, the log lists the destroyed disposables once each, plus the bean itself when a disposable is given |
| Teardown.DestroyDependents | spring-beans/src/main/java/org/springframework/beans/factory/support/DefaultSingletonBeanRegistry.java:819-839 | the bean's dependent entry is gone, every one of its dependents is destroyed, the log lists the disposables removed, and without an entry nothing happens |
| Teardown.DestroyContained | spring-beans/src/main/java/org/springframework/beans/factory/support/DefaultSingletonBeanRegistry.java:858-871 | the bean's containment entry is gone, every bean it contained is destroyed, the log lists the disposables removed, and without an entry nothing happens |
| Teardown.DestroyEach | spring-beans/src/main/java/org/springframework/beans/factory/support/DefaultSingletonBeanRegistry.java:738-744 | destroying names one after another only removes, logs each removed disposable once, and leaves every listed name without tier entry or disposable |
| Teardown.DetachKeeps | spring-beans/src/main/java/org/springframework/beans/factory/support/DefaultSingletonBeanRegistry.java:787-803 | detaching `n` leaves every other name with its tier entries and its disposable |
| Teardown.DestroySingletonSpares | spring-beans/src/main/java/org/springframework/beans/factory/support/DefaultSingletonBeanRegistry.java:787-806 | for any set of names that holds `n` and is closed under dependent and contained edges, a name `u` outside the set keeps its tier entries, its disposable, its contained beans, its dependencies and its dependents outside the set, and is not logged |
| Teardown.DestroyBeanSpares | spring-beans/src/main/java/org/springframework/beans/factory/support/DefaultSingletonBeanRegistry.java:816-899 | the same for `destroyBean`: it touches only names inside an edge-closed set holding the bean |
| Teardown.DestroyDependentsSpares | spring-beans/src/main/java/org/springframework/beans/factory/support/DefaultSingletonBeanRegistry.java:819-839 | the same for the dependents phase |
| Teardown.DestroyContainedSpares | spring-beans/src/main/java/org/springframework/beans/factory/support/DefaultSingletonBeanRegistry.java:858-871 | the same for the contained phase |
| Teardown.DestroyEachSpares | spring-beans/src/main/java/org/springframework/beans/factory/support/DefaultSingletonBeanRegistry.java:738-744 | destroying names of an edge-closed set one by one touches only names inside it |
| Teardown.DestroySingletonUnreached | spring-beans/src/main/java/org/springframework/beans/factory/support/DefaultSingletonBeanRegistry.java:787-806 | a name `u` that `n` does not reach along dependent and contained edges keeps its tier entries, its disposable, its contained beans, its dependencies and every dependent `n` does not reach, and is not destroyed |
| Teardown.DestroyEachUnreached | spring-beans/src/main/java/org/springframework/beans/factory/support/DefaultSingletonBeanRegistry.java:738-744 | a name that none of the listed names reaches is kept as for `DestroySingletonUnreached`, and is not destroyed |
| Teardown.DestroySingletonKeeps | spring-beans/src/main/java/org/springframework/beans/factory/support/DefaultSingletonBeanRegistry.java:787-806 | `destroySingleton` keeps the cache invariant and the dependent sets proper |
| Teardown.DestroyBeanKeeps | spring-beans/src/main/java/org/springframework/beans/factory/support/DefaultSingletonBeanRegistry.java:816-899 | `destroyBean` keeps the cache invariant and the dependent sets proper |
| Teardown.DestroyEachKeeps | spring-beans/src/main/java/org/springframework/beans/factory/support/DefaultSingletonBeanRegistry.java:738-744 | destroying a sequence of singletons keeps the cache invariant and the dependent sets proper |
| Teardown.DestroyDependentsKeeps | spring-beans/src/main/java/org/springframework/beans/factory/support/DefaultSingletonBeanRegistry.java:819-839 | destroying the dependents keeps the cache invariant and the dependent sets proper |
| Teardown.DestroyContainedKeeps | spring-beans/src/main/java/org/springframework/beans/factory/support/DefaultSingletonBeanRegistry.java:858-871 | destroying the contained beans keeps the cache invariant and the dependent sets proper |
| Teardown.RetiresMirrored | spring-beans/src/main/java/org/springframework/beans/factory/support/DefaultSingletonBeanRegistry.java:878-898 | a teardown step keeps every remaining dependent edge mirrored, because a dropped dependency entry belongs to a bean that is no longer anyone's dependent |
| Teardown.DestroySingletonValid | spring-beans/src/main/java/org/springframework/beans/factory/support/DefaultSingletonBeanRegistry.java:787-806 | `destroySingleton` keeps the whole registry invariant |
| Teardown.DependentsBeforeBean | spring-beans/src/main/java/org/springframework/beans/factory/support/DefaultSingletonBeanRegistry.java:819-854 | with its disposable detached, every dependent of the bean that has a disposable is destroyed before the bean itself |
| Teardown.ContainedAfterBean | spring-beans/src/main/java/org/springframework/beans/factory/support/DefaultSingletonBeanRegistry.java:843-871 | every contained bean with a disposable is destroyed, after the bean itself unless it was already destroyed as one of the bean's dependents |
| Teardown.DependentsBeforeSingleton | spring-beans/src/main/java/org/springframework/beans/factory/support/DefaultSingletonBeanRegistry.java:787-806 | in `destroySingleton`, each other dependent that has a disposable is destroyed before the singleton |
| Teardown.ContainedAfterSingleton | spring-beans/src/main/java/org/springframework/beans/factory/support/DefaultSingletonBeanRegistry.java:787-806 | in `destroySingleton`, each other contained bean with a disposable is destroyed, after the singleton unless the dependents phase already destroyed it |
| Teardown.DestroySingletons | spring-beans/src/main/java/org/springframework/beans/factory/support/DefaultSingletonBeanRegistry.java:721-755 | afterwards the tiers, index and graph are empty and the destruction phase is over; creation bookkeeping is kept; each disposable is destroyed at most once and only registered ones are; with the order in step with the disposables, every disposable is destroyed and none is left |
| Teardown.DestroySingletonsValid | spring-beans/src/main/java/org/springframework/beans/factory/support/DefaultSingletonBeanRegistry.java:721-755 | `destroySingletons` leaves a valid registry valid |
| Teardown.DestroySingletonsTwice | spring-beans/src/main/java/org/springframework/beans/factory/support/DefaultSingletonBeanRegistry.java:721-777 | a second `destroySingletons` destroys nothing and changes nothing |
| Teardown.DestroyBeanFlat | spring-beans/src/main/java/org/springframework/beans/factory/support/DefaultSingletonBeanRegistry.java:816-899 | without dependency or containment edges, `destroyBean` destroys only the given disposable |
| Teardown.DestroySingletonFlat | spring-beans/src/main/java/org/springframework/beans/factory/support/DefaultSingletonBeanRegistry.java:787-806 | without edges, `destroySingleton` of a disposable name destroys exactly that name |
| Teardown.DestroyEachFlat | spring-beans/src/main/java/org/springframework/beans/factory/support/DefaultSingletonBeanRegistry.java:738-744 | without edges, destroying distinct disposable names one by one logs them in that order |
| Teardown.DestroySingletonsReverseOrder | spring-beans/src/main/java/org/springframework/beans/factory/support/DefaultSingletonBeanRegistry.java:733-744 | without edges, `destroySingletons` destroys the disposables in exactly the reverse of their registration order |
| Teardown.DestroySingletonsOrder | spring-beans/src/main/java/org/springframework/beans/factory/support/DefaultSingletonBeanRegistry.java:721-744 | when `d` depends on `a`, both have a disposable and `d` does not reach `a` back along dependent and contained edges, `destroySingletons` destroys `d` before `a` |
| Teardown.DestroySingletonOrder | spring-beans/src/main/java/org/springframework/beans/factory/support/DefaultSingletonBeanRegistry.java:787-806 | one `destroySingleton` keeps such a pair in order: it destroys `d` before `a` when it destroys `a`, and when it destroys neither, the pair is still disposable, still linked and still without a path back |
| Teardown.DependentFirst | spring-beans/src/main/java/org/springframework/beans/factory/support/DefaultSingletonBeanRegistry.java:787-852 | destroying `d` itself does not reach `a` in its dependents phase, so `a`, if destroyed at all, comes after `d` |
| Teardown.DestroyBeanOrder | spring-beans/src/main/java/org/springframework/beans/factory/support/DefaultSingletonBeanRegistry.java:816-899 | the same for `destroyBean` of a third name |
| Teardown.DestroyDependentsOrder | spring-beans/src/main/java/org/springframework/beans/factory/support/DefaultSingletonBeanRegistry.java:819-839 | the same for the dependents phase of a name other than `a` |
| Teardown.DestroyContainedOrder | spring-beans/src/main/java/org/springframework/beans/factory/support/DefaultSingletonBeanRegistry.java:858-871 | the same for the contained phase |
| Teardown.DestroyEachOrder | spring-beans/src/main/java/org/springframework/beans/factory/support/DefaultSingletonBeanRegistry.java:738-744 | the same for destroying names one by one |

## Left out

- Locking: the `synchronized` blocks, the choice of concurrent maps, and
  `getSingletonMutex` (lines 911-914) are left out. The model is single-threaded.
  A re-entrant creation is a nested call inside the factory function. Because of
  that, the locked re-check inside `getSingleton(beanName, allowEarlyReference)`
  reads the same state as the first check.
- Logging (`logger.debug`, `trace` and `warn`) has no effect on the state and is
  left out.
- Alias resolution through `canonicalName` belongs to the superclass and is the
  identity here.
- The `Assert.notNull` checks are left out, since names, objects and factories
  cannot be null in the model. A factory that returns null is not modelled
  either: `Created` always carries an object.
- An exception thrown by a staged early factory inside
  `getSingleton(beanName, allowEarlyReference)` is not modelled, since
  `getObject` is a total function.
- `DisposableBean.destroy()` is not executed. Its call is recorded in the log.
  Because the source catches and only logs any exception it throws, the call is
  logged whatever it would do.
- Trivial delegations have no contract of their own and no row in the table:
  - `getSingleton(beanName)` (lines 237-240) is `GetSingleton` with early
    references allowed.
  - `containsSingleton`, `isSingletonCurrentlyInCreation`, `isCurrentlyInCreation`
    and `hasDependentBean` are membership predicates.
  - `isActuallyInCreation` (lines 474-476) is `IsSingletonCurrentlyInCreation`.
- A snapshot of the disposable names is taken from `disposableOrder`. The
  statements that need it to match the keys of `disposableBeans` assume
  `DisposalValid`, which `RegisterDisposableBean` and every teardown step keep.
- Teardown.DestroySingleton: what it leaves alone is stated by the lemmas
  `DestroySingletonSpares` and `DestroySingletonUnreached`, not by its own
  ensures, since the frame needs the edge-closed set as a parameter.
- Teardown.DestroyDependents: likewise, its frame is `DestroyDependentsSpares`.
- Teardown.DestroyContained: likewise, its frame is `DestroyContainedSpares`.
- Teardown.DestroyEach: likewise, its frame is `DestroyEachSpares` and
  `DestroyEachUnreached`.
- InstanceCache.GetSingleton: the staged factory `getObject` is a pure function
  of the factory. It is assumed not to read or change the registry, although a
  Java `ObjectFactory` could call back into it. The frame clauses and the kept
  cache invariant depend on that assumption.
- Teardown.DestroyBean: the log statement is proved only for a bean whose
  disposable has already been detached. That is the only way `destroySingleton`
  calls it. What it leaves alone is stated by `DestroyBeanSpares`, not by
  its own ensures, for the same reason as for `DestroySingleton`.
- Teardown.DestroySingletonsReverseOrder: the exact reverse registration order
  is proved only when there are no dependency or containment edges. With
  edges, `DestroySingletonsOrder` states the promise that matters: a dependent
  is destroyed before the bean it depends on.
- Teardown.DestroySingletonsOrder: it requires that the dependent `d` does not
  reach `a` back along dependent and contained edges. With such a cycle the
  code itself can run the destroy callback of `a` first. Destroying `d` detaches
  its disposable and then destroys its dependents. When that cascade reaches `a`,
  `a` is destroyed while `d` is only detached, and `d`'s callback runs later.
- Teardown.ContainedAfterBean: a contained bean that is also a transitive
  dependent is destroyed during the dependents phase, before the bean. The
  statement therefore orders only the contained beans that the dependents phase
  did not reach, as the source does.
- CreationCoordinator.GetOrCreateValid: the factory is arbitrary, so
  preservation of the invariant is conditional on the factory's own run keeping
  it.
- `registerSingleton` refuses any name that already has a full instance. This
  includes re-registering the same instance, which a looser description of the
  operation would allow. The model follows the code.

=== FILE: cache.dfy ===
/**
 The three-tier instance cache: full instances, early instances exposed while a
 bean is still being created, and staged factories that produce early instances
 on demand, plus the registration-order index of all names in some tier.
 */
module InstanceCache {
  import opened Wrappers
  import opened Ordered
  import opened RegistryState

  /** What a raw lookup returns, the registry after it, and whether it ran a staged factory. */
  datatype Lookup = Lookup(reg: Registry, obj: Option<Obj>, factoryInvoked: bool)

  /** `addSingleton`: binds a full instance and retires the name's early entry and factory. */
  function AddSingleton(r: Registry, n: Name, x: Obj): (r': Registry)
    ensures n in r'.singletonObjects && r'.singletonObjects[n] == x
    ensures n !in r'.earlySingletonObjects && n !in r'.singletonFactories
    ensures r'.registeredSingletons == Insert(r.registeredSingletons, n)
    ensures forall k :: k != n ==> SameEntryAt(r, r', k)
    ensures SameBookkeeping(r, r') && SameGraph(r, r')
    ensures CacheValid(r) ==> CacheValid(r')
  {
    var r' := r.(singletonObjects := r.singletonObjects[n := x],
                 singletonFactories := r.singletonFactories - {n},
                 earlySingletonObjects := r.earlySingletonObjects - {n},
                 registeredSingletons := Insert(r.registeredSingletons, n));
    forall k | k != n ensures SameEntryAt(r, r', k) {
      assert k in r'.registeredSingletons <==> k in r.registeredSingletons;
    }
    assert CacheValid(r) ==> CacheValid(r') by {
      if CacheValid(r) {
        BindKeepsCache(r.singletonObjects, r.earlySingletonObjects, r.singletonFactories, r.registeredSingletons, n, x);
      }
    }
    r'
  }

  /** Binding a full instance and retiring the early entry and factory keeps the cache-tier invariant. */
  lemma BindKeepsCache(objs: map<Name, Obj>, early: map<Name, Obj>, factories: map<Name, ObjectFactory>,
                       registered: seq<Name>, n: Name, x: Obj)
    requires TiersValid(objs, early, factories, registered)
    ensures TiersValid(objs[n := x], early - {n}, factories - {n}, Insert(registered, n))
  {
  }

  /** `registerSingleton`: refuses a name that already has a full instance, otherwise `addSingleton`. */
  function RegisterSingleton(r: Registry, n: Name, x: Obj): (res: Result<Registry, Fault>)
    ensures n in r.singletonObjects ==> res == Failure(AlreadyBound(n, r.singletonObjects[n]))
    ensures n !in r.singletonObjects ==>
      && res.Success?
      && n in res.value.singletonObjects && res.value.singletonObjects[n] == x
      && n !in res.value.earlySingletonObjects && n !in res.value.singletonFactories
      && res.value.registeredSingletons == Insert(r.registeredSingletons, n)
      && (forall k :: k != n ==> SameEntryAt(r, res.value, k))
      && SameBookkeeping(r, res.value) && SameGraph(r, res.value)
    ensures res.Success? && CacheValid(r) ==> CacheValid(res.value)
  {
    if n in r.singletonObjects then Failure(AlreadyBound(n, r.singletonObjects[n]))
    else Success(AddSingleton(r, n, x))
  }

  /**
   `addSingletonFactory`: stages a factory for early references unless a full
   instance exists, discarding a stale early instance.
   */
  function AddSingletonFactory(r: Registry, n: Name, f: ObjectFactory): (r': Registry)
    ensures n in r.singletonObjects ==> r' == r
    ensures n !in r.singletonObjects ==>
      && n in r'.singletonFactories && r'.singletonFactories[n] == f
      && n !in r'.earlySingletonObjects
      && n !in r'.singletonObjects
      && r'.registeredSingletons == Insert(r.registeredSingletons, n)
    ensures forall k :: k != n ==> SameEntryAt(r, r', k)
    ensures SameBookkeeping(r, r') && SameGraph(r, r')
    ensures CacheValid(r) ==> CacheValid(r')
  {
    if n in r.singletonObjects then r
    else
      var r' := r.(singletonFactories := r.singletonFactories[n := f],
                   earlySingletonObjects := r.earlySingletonObjects - {n},
                   registeredSingletons := Insert(r.registeredSingletons, n));
      forall k | k != n ensures SameEntryAt(r, r', k) {
        assert k in r'.registeredSingletons <==> k in r.registeredSingletons;
      }
      assert CacheValid(r) ==> CacheValid(r') by {
        if CacheValid(r) {
          StageKeepsCache(r.singletonObjects, r.earlySingletonObjects, r.singletonFactories, r.registeredSingletons, n, f);
        }
      }
      r'
  }

  /** Staging a factory for a name without a full instance keeps the cache-tier invariant. */
  lemma StageKeepsCache(objs: map<Name, Obj>, early: map<Name, Obj>, factories: map<Name, ObjectFactory>,
                        registered: seq<Name>, n: Name, f: ObjectFactory)
    requires TiersValid(objs, early, factories, registered) && n !in objs
    ensures TiersValid(objs, early - {n}, factories[n := f], Insert(registered, n))
  {
  }

  /**
   `getSingleton(beanName, allowEarlyReference)`: the full instance if there is one;
   for a name in creation, its early instance; and, only when early references
   are allowed and a factory is staged, the staged factory's product, which
   becomes the early instance while the factory is discarded. `getObject` stands
   for invoking a staged factory. The locked re-check of the source reads the same
   state again here, since the model is single-threaded.
   */
  function GetSingleton(r: Registry, n: Name, allowEarly: bool, getObject: ObjectFactory -> Obj): (l: Lookup)
    ensures n in r.singletonObjects ==> l == Lookup(r, Some(r.singletonObjects[n]), false)
    ensures n !in r.singletonObjects && n !in r.singletonsCurrentlyInCreation ==> l == Lookup(r, None, false)
    ensures n !in r.singletonObjects && n in r.singletonsCurrentlyInCreation && n in r.earlySingletonObjects ==>
      l == Lookup(r, Some(r.earlySingletonObjects[n]), false)
    ensures l.factoryInvoked <==>
      && n !in r.singletonObjects && n in r.singletonsCurrentlyInCreation
      && n !in r.earlySingletonObjects && allowEarly && n in r.singletonFactories
    ensures !l.factoryInvoked ==> l.reg == r
    ensures l.factoryInvoked ==>
      var o := getObject(r.singletonFactories[n]);
      && l.obj == Some(o)
      && n in l.reg.earlySingletonObjects && l.reg.earlySingletonObjects[n] == o
      && n !in l.reg.singletonFactories
      && (forall k :: k != n ==> SameEntryAt(r, l.reg, k))
      && l.reg.singletonObjects == r.singletonObjects
      && l.reg.registeredSingletons == r.registeredSingletons
      && SameBookkeeping(r, l.reg) && SameGraph(r, l.reg)
    ensures l.obj.None? ==>
      && n !in r.singletonObjects
      && (n in r.singletonsCurrentlyInCreation ==>
            n !in r.earlySingletonObjects && (!allowEarly || n !in r.singletonFactories))
    ensures CacheValid(r) ==> CacheValid(l.reg)
  {
    if n in r.singletonObjects then Lookup(r, Some(r.singletonObjects[n]), false)
    else if n !in r.singletonsCurrentlyInCreation then Lookup(r, None, false)
    else if n in r.earlySingletonObjects then Lookup(r, Some(r.earlySingletonObjects[n]), false)
    else if !allowEarly then Lookup(r, None, false)
    else if n !in r.singletonFactories then Lookup(r, None, false)
    else
      var o := getObject(r.singletonFactories[n]);
      var r' := r.(earlySingletonObjects := r.earlySingletonObjects[n := o],
                   singletonFactories := r.singletonFactories - {n});
      forall k | k != n ensures SameEntryAt(r, r', k) {
        assert k in r'.registeredSingletons <==> k in r.registeredSingletons;
      }
      assert CacheValid(r) ==> CacheValid(r') by {
        if CacheValid(r) {
          PromoteKeepsCache(r.singletonObjects, r.earlySingletonObjects, r.singletonFactories, r.registeredSingletons, n, o);
        }
      }
      Lookup(r', Some(o), true)
  }

  /** Promoting a staged factory's product to an early instance keeps the cache-tier invariant. */
  lemma PromoteKeepsCache(objs: map<Name, Obj>, early: map<Name, Obj>, factories: map<Name, ObjectFactory>,
                          registered: seq<Name>, n: Name, o: Obj)
    requires TiersValid(objs, early, factories, registered) && n in factories
    ensures TiersValid(objs, early[n := o], factories - {n}, registered)
  {
  }

  /** `removeSingleton`: evicts the name from every tier and from the registration index. */
  function RemoveSingleton(r: Registry, n: Name): (r': Registry)
    ensures n !in r'.singletonObjects && n !in r'.earlySingletonObjects && n !in r'.singletonFactories
    ensures n !in r'.registeredSingletons
    ensures forall k :: k != n ==> SameEntryAt(r, r', k)
    ensures SubMap(r'.singletonObjects, r.singletonObjects)
    ensures SubMap(r'.earlySingletonObjects, r.earlySingletonObjects)
    ensures SubMap(r'.singletonFactories, r.singletonFactories)
    ensures SameBookkeeping(r, r') && SameGraph(r, r')
    ensures CacheValid(r) ==> CacheValid(r')
  {
    var r' := r.(singletonObjects := r.singletonObjects - {n},
                 singletonFactories := r.singletonFactories - {n},
                 earlySingletonObjects := r.earlySingletonObjects - {n},
                 registeredSingletons := Delete(r.registeredSingletons, n));
    forall k | k != n ensures SameEntryAt(r, r', k) {
      assert k in r'.registeredSingletons <==> k in r.registeredSingletons;
    }
    assert CacheValid(r) ==> CacheValid(r') by {
      if CacheValid(r) {
        EvictKeepsCache(r.singletonObjects, r.earlySingletonObjects, r.singletonFactories, r.registeredSingletons, n);
      }
    }
    r'
  }

  /** Evicting a name from every tier and from the index keeps the cache-tier invariant. */
  lemma EvictKeepsCache(objs: map<Name, Obj>, early: map<Name, Obj>, factories: map<Name, ObjectFactory>,
                        registered: seq<Name>, n: Name)
    requires TiersValid(objs, early, factories, registered)
    ensures TiersValid(objs - {n}, early - {n}, factories - {n}, Delete(registered, n))
  {
  }

  /** `containsSingleton`: whether a full instance is bound. */
  predicate ContainsSingleton(r: Registry, n: Name) {
    n in r.singletonObjects
  }

  /** `getSingletonNames`: the registration-order snapshot, one entry per name in some tier. */
  function GetSingletonNames(r: Registry): (names: seq<Name>)
    ensures CacheValid(r) ==> NoDup(names)
    ensures CacheValid(r) ==> forall k :: k in names <==>
      k in r.singletonObjects || k in r.earlySingletonObjects || k in r.singletonFactories
  {
    r.registeredSingletons
  }

  /** `getSingletonCount`: the number of distinct names held in the three tiers. */
  function GetSingletonCount(r: Registry): (c: nat)
    ensures CacheValid(r) ==>
      c == |r.singletonObjects.Keys + r.earlySingletonObjects.Keys + r.singletonFactories.Keys|
  {
    RegisteredCount(r);
    |r.registeredSingletons|
  }

  /** Under the cache invariant the index holds one position per name in some tier. */
  lemma RegisteredCount(r: Registry)
    ensures CacheValid(r) ==>
      |r.registeredSingletons| == |r.singletonObjects.Keys + r.earlySingletonObjects.Keys + r.singletonFactories.Keys|
  {
    if CacheValid(r) {
      var tiers := r.singletonObjects.Keys + r.earlySingletonObjects.Keys + r.singletonFactories.Keys;
      SeqSetCard(r.registeredSingletons, tiers);
    }
  }

  lemma SeqSetCard(s: seq<Name>, t: set<Name>)
    requires NoDup(s)
    requires forall k :: k in s <==> k in t
    ensures |s| == |t|
  {
    NoDupCard(s);
    assert (set k | k in s) == t;
  }

  /**
   A successful registration is what later lookups see, with or without early
   references, and a second registration under the same name is refused with the
   first instance reported and kept.
   */
  lemma RegisterThenLookup(r: Registry, n: Name, x: Obj, y: Obj, allowEarly: bool, getObject: ObjectFactory -> Obj)
    requires n !in r.singletonObjects
    ensures RegisterSingleton(r, n, x).Success?
    ensures var r1 := RegisterSingleton(r, n, x).value;
      && ContainsSingleton(r1, n)
      && GetSingleton(r1, n, allowEarly, getObject) == Lookup(r1, Some(x), false)
      && RegisterSingleton(r1, n, y) == Failure(AlreadyBound(n, x))
  {
  }

  /**
   Once a staged factory has been promoted, the early instance is stable: a
   second lookup returns the same object and runs no factory.
   */
  lemma EarlyReferenceStable(r: Registry, n: Name, allowEarly: bool, getObject: ObjectFactory -> Obj)
    requires GetSingleton(r, n, true, getObject).factoryInvoked
    ensures var l := GetSingleton(r, n, true, getObject);
      GetSingleton(l.reg, n, allowEarly, getObject) == Lookup(l.reg, l.obj, false)
  {
  }
}

=== FILE: creation.dfy ===
/**
 The creation coordinator: `getSingleton(beanName, singletonFactory)` with its
 in-creation marking, the creation-check exclusions, and the collection of
 suppressed exceptions that the outermost creation attaches to its failure.

 A factory is modelled as what running it does: from the registry it is invoked
 on, it yields the registry after it returns (nested registry calls included)
 and how it ended.
 */
module CreationCoordinator {
  import opened Wrappers
  import opened Ordered
  import opened RegistryState
  import opened InstanceCache

  /** How `ObjectFactory.getObject` ended. */
  datatype Outcome =
    | Created(obj: Obj)
    | IllegalStateThrown(exc: Exc)
    | CreationFailed(exception: CreationException)
    | OtherException(exc: Exc)

  datatype FactoryRun = FactoryRun(after: Registry, outcome: Outcome)

  /** A call that may throw after the state has changed: the state it leaves and its result. */
  datatype Step<T> = Step(reg: Registry, out: Result<T, Fault>)

  /** `isSingletonCurrentlyInCreation` (and `isActuallyInCreation`, which delegates to it). */
  predicate IsSingletonCurrentlyInCreation(r: Registry, n: Name) {
    n in r.singletonsCurrentlyInCreation
  }

  /** `isCurrentlyInCreation`: in creation and not excluded from the check. */
  predicate IsCurrentlyInCreation(r: Registry, n: Name) {
    n !in r.inCreationCheckExclusions && IsSingletonCurrentlyInCreation(r, n)
  }

  /**
   `setCurrentlyInCreation(beanName, inCreation)`: `false` excludes the name from
   the in-creation check, `true` lifts the exclusion.
   */
  function SetCurrentlyInCreation(r: Registry, n: Name, inCreation: bool): (r': Registry)
    ensures n in r'.inCreationCheckExclusions <==> !inCreation
    ensures IsCurrentlyInCreation(r', n) <==> inCreation && IsSingletonCurrentlyInCreation(r, n)
    ensures forall k :: k != n ==> (k in r'.inCreationCheckExclusions <==> k in r.inCreationCheckExclusions)
    ensures r'.singletonsCurrentlyInCreation == r.singletonsCurrentlyInCreation
    ensures r'.(inCreationCheckExclusions := r.inCreationCheckExclusions) == r
  {
    if !inCreation then r.(inCreationCheckExclusions := r.inCreationCheckExclusions + {n})
    else r.(inCreationCheckExclusions := r.inCreationCheckExclusions - {n})
  }

  /**
   `beforeSingletonCreation`: marks a non-excluded name as in creation, and
   refuses one that already is.
   */
  function BeforeSingletonCreation(r: Registry, n: Name): (res: Result<Registry, Fault>)
    ensures IsCurrentlyInCreation(r, n) <==> res.Failure?
    ensures res.Failure? ==> res.error == CurrentlyInCreation(n)
    ensures res.Success? ==>
      && res.value == r.(singletonsCurrentlyInCreation := res.value.singletonsCurrentlyInCreation)
      && (n in r.inCreationCheckExclusions ==> res.value == r)
      && (n !in r.inCreationCheckExclusions ==>
            res.value.singletonsCurrentlyInCreation == r.singletonsCurrentlyInCreation + {n}
            && !IsSingletonCurrentlyInCreation(r, n))
  {
    if n in r.inCreationCheckExclusions then Success(r)
    else if n in r.singletonsCurrentlyInCreation then Failure(CurrentlyInCreation(n))
    else Success(r.(singletonsCurrentlyInCreation := r.singletonsCurrentlyInCreation + {n}))
  }

  /**
   `afterSingletonCreation`: unmarks a non-excluded name, and reports one that
   is not marked.
   */
  function AfterSingletonCreation(r: Registry, n: Name): (res: Result<Registry, Fault>)
    ensures res.Failure? <==> n !in r.inCreationCheckExclusions && n !in r.singletonsCurrentlyInCreation
    ensures res.Failure? ==> res.error == NotCurrentlyInCreation(n)
    ensures res.Success? ==>
      && res.value == r.(singletonsCurrentlyInCreation := res.value.singletonsCurrentlyInCreation)
      && (n in r.inCreationCheckExclusions ==> res.value == r)
      && (n !in r.inCreationCheckExclusions ==>
            res.value.singletonsCurrentlyInCreation == r.singletonsCurrentlyInCreation - {n})
  {
    if n in r.inCreationCheckExclusions then Success(r)
    else if n !in r.singletonsCurrentlyInCreation then Failure(NotCurrentlyInCreation(n))
    else Success(r.(singletonsCurrentlyInCreation := r.singletonsCurrentlyInCreation - {n}))
  }

  /**
   Once excluded, a name passes both the marking and the unmarking, and neither
   touches the set of names in creation.
   */
  lemma ExcludedPassesCreationCheck(r: Registry, n: Name)
    ensures var r1 := SetCurrentlyInCreation(r, n, false);
      && BeforeSingletonCreation(r1, n) == Success(r1)
      && AfterSingletonCreation(r1, n) == Success(r1)
      && r1.singletonsCurrentlyInCreation == r.singletonsCurrentlyInCreation
      && !IsCurrentlyInCreation(r1, n)
  {
  }

  /** The marking and the unmarking undo each other. */
  lemma BeforeAfterRoundTrip(r: Registry, n: Name)
    requires !IsCurrentlyInCreation(r, n)
    ensures BeforeSingletonCreation(r, n).Success?
    ensures var r1 := BeforeSingletonCreation(r, n).value;
      && AfterSingletonCreation(r1, n).Success?
      && AfterSingletonCreation(r1, n).value.singletonsCurrentlyInCreation
           == (if n in r.inCreationCheckExclusions then r.singletonsCurrentlyInCreation
               else r.singletonsCurrentlyInCreation - {n})
      && !IsCurrentlyInCreation(AfterSingletonCreation(r1, n).value, n)
  {
  }

  /**
   `onSuppressedException`: while a collection is open and below the limit, the
   exception joins it (once); otherwise it is dropped.
   */
  function OnSuppressedException(r: Registry, ex: Exc): (r': Registry)
    ensures r'.suppressedExceptions.Some? <==> r.suppressedExceptions.Some?
    ensures r.suppressedExceptions.Some? && |r.suppressedExceptions.value| < SuppressedExceptionsLimit ==>
      r'.suppressedExceptions.value == Insert(r.suppressedExceptions.value, ex)
    ensures r.suppressedExceptions.Some? && |r.suppressedExceptions.value| >= SuppressedExceptionsLimit ==>
      r' == r
    ensures r.suppressedExceptions.None? ==> r' == r
    ensures r'.(suppressedExceptions := r.suppressedExceptions) == r
    ensures SuppressedValid(r) ==> SuppressedValid(r')
  {
    if r.suppressedExceptions.Some? && |r.suppressedExceptions.value| < SuppressedExceptionsLimit then
      r.(suppressedExceptions := Some(Insert(r.suppressedExceptions.value, ex)))
    else r
  }

  /** Exceptions suppressed one after another, as sibling creations report them. */
  function SuppressAll(r: Registry, exs: seq<Exc>): (r': Registry)
    ensures r'.(suppressedExceptions := r.suppressedExceptions) == r
    decreases |exs|
  {
    if exs == [] then r else SuppressAll(OnSuppressedException(r, exs[0]), exs[1..])
  }

  /** However many exceptions are reported, the collection never exceeds the limit. */
  lemma {:induction false} SuppressAllBounded(r: Registry, exs: seq<Exc>)
    requires SuppressedValid(r)
    ensures SuppressedValid(SuppressAll(r, exs))
    ensures SuppressAll(r, exs).suppressedExceptions.Some? <==> r.suppressedExceptions.Some?
    decreases |exs|
  {
    if exs != [] {
      SuppressAllBounded(OnSuppressedException(r, exs[0]), exs[1..]);
    }
  }

  /**
   With distinct exceptions, the collection keeps the oldest ones: the first
   reports up to the limit, in order, and nothing after.
   */
  lemma {:induction false} SuppressAllKeepsOldest(r: Registry, exs: seq<Exc>)
    requires r.suppressedExceptions.Some?
    requires |r.suppressedExceptions.value| <= SuppressedExceptionsLimit
    requires NoDup(r.suppressedExceptions.value + exs)
    ensures SuppressAll(r, exs).suppressedExceptions ==
      Some(Take(r.suppressedExceptions.value + exs, SuppressedExceptionsLimit))
    decreases |exs|
  {
    var p := r.suppressedExceptions.value;
    if exs == [] {
      assert p + exs == p;
    } else if |p| >= SuppressedExceptionsLimit {
      assert SuppressAll(r, exs) == r by { StaysFull(r, exs); }
      assert (p + exs)[..SuppressedExceptionsLimit] == p;
    } else {
      var r1 := OnSuppressedException(r, exs[0]);
      assert exs[0] !in p by {
        assert (p + exs)[|p|] == exs[0];
        forall i | 0 <= i < |p| ensures p[i] != exs[0] {
          assert (p + exs)[i] == p[i];
        }
      }
      assert r1.suppressedExceptions.value == p + [exs[0]];
      assert p + exs == (p + [exs[0]]) + exs[1..];
      SuppressAllKeepsOldest(r1, exs[1..]);
    }
  }

  /** A full collection takes nothing more. */
  lemma {:induction false} StaysFull(r: Registry, exs: seq<Exc>)
    requires r.suppressedExceptions.Some?
    requires |r.suppressedExceptions.value| >= SuppressedExceptionsLimit
    ensures SuppressAll(r, exs) == r
    decreases |exs|
  {
    if exs != [] {
      StaysFull(OnSuppressedException(r, exs[0]), exs[1..]);
    }
  }

  /**
   The registry a factory runs in, once the entry check has passed: the name is
   marked in creation unless excluded, and a collection of suppressed exceptions
   is open, a fresh one when none was.
   */
  function CreationEntry(r: Registry, n: Name): (r': Registry)
    ensures n !in r.inCreationCheckExclusions ==> IsCurrentlyInCreation(r', n)
    ensures r'.suppressedExceptions.Some?
    ensures r.suppressedExceptions.None? ==> r'.suppressedExceptions == Some([])
    ensures r.suppressedExceptions.Some? ==> r'.suppressedExceptions == r.suppressedExceptions
    ensures r'.singletonsCurrentlyInCreation
      == (if n in r.inCreationCheckExclusions then r.singletonsCurrentlyInCreation
          else r.singletonsCurrentlyInCreation + {n})
    ensures r'.inCreationCheckExclusions == r.inCreationCheckExclusions
    ensures r'.singletonsCurrentlyInDestruction == r.singletonsCurrentlyInDestruction
    ensures SameCache(r, r') && SameGraph(r, r')
    ensures Valid(r) ==> Valid(r')
  {
    var marked := if n in r.inCreationCheckExclusions then r.singletonsCurrentlyInCreation
                  else r.singletonsCurrentlyInCreation + {n};
    r.(singletonsCurrentlyInCreation := marked,
       suppressedExceptions := if r.suppressedExceptions.None? then Some([]) else r.suppressedExceptions)
  }

  /** The entry check of `getSingleton(beanName, singletonFactory)` lets the factory run. */
  predicate PassesEntryCheck(r: Registry, n: Name) {
    n !in r.singletonObjects && !r.singletonsCurrentlyInDestruction && !IsCurrentlyInCreation(r, n)
  }

  /** The exceptions collected so far, none when no collection is open. */
  function Collected(r: Registry): seq<Exc> {
    if r.suppressedExceptions.Some? then r.suppressedExceptions.value else []
  }

  /** The catch clauses: how a factory's outcome is turned into a pending result. */
  function CatchOutcome(caught: Registry, n: Name, outcome: Outcome, recordSuppressed: bool)
    : (pending: Result<(Obj, bool), Fault>)
    ensures outcome.Created? ==> pending == Success((outcome.obj, true))
    ensures outcome.IllegalStateThrown? && n in caught.singletonObjects ==>
      pending == Success((caught.singletonObjects[n], false))
    ensures outcome.IllegalStateThrown? && n !in caught.singletonObjects ==>
      pending == Failure(IllegalStateRethrown(outcome.exc))
    ensures outcome.CreationFailed? && recordSuppressed ==>
      pending == Failure(BeanCreationFailed(CreationException(
        outcome.exception.cause, outcome.exception.relatedCauses + Collected(caught))))
    ensures outcome.CreationFailed? && !recordSuppressed ==>
      pending == Failure(BeanCreationFailed(outcome.exception))
    ensures outcome.OtherException? ==> pending == Failure(UncheckedThrown(outcome.exc))
  {
    match outcome
    case Created(o) => Success((o, true))
    case IllegalStateThrown(e) =>
      // has the singleton implicitly appeared in the meantime?
      if n in caught.singletonObjects then Success((caught.singletonObjects[n], false))
      else Failure(IllegalStateRethrown(e))
    case CreationFailed(ex) =>
      Failure(BeanCreationFailed(
        if recordSuppressed then CreationException(ex.cause, ex.relatedCauses + Collected(caught))
        else ex))
    case OtherException(e) => Failure(UncheckedThrown(e))
  }

  /**
   What follows the factory's run: the catch clauses, the finally block that
   closes an own collection of suppressed exceptions and unmarks the name, and
   the registration of a new instance.
   */
  function FinishCreation(caught: Registry, n: Name, outcome: Outcome, recordSuppressed: bool): (s: Step<Obj>)
    ensures n !in caught.inCreationCheckExclusions ==> !IsSingletonCurrentlyInCreation(s.reg, n)
    ensures s.reg.inCreationCheckExclusions == caught.inCreationCheckExclusions
    ensures s.reg.singletonsCurrentlyInDestruction == caught.singletonsCurrentlyInDestruction
    ensures SameGraph(caught, s.reg)
    ensures forall k :: k != n ==> SameEntryAt(caught, s.reg, k)
    ensures forall k :: k != n ==>
      (IsSingletonCurrentlyInCreation(s.reg, k) <==> IsSingletonCurrentlyInCreation(caught, k))
    ensures n !in caught.inCreationCheckExclusions && n !in caught.singletonsCurrentlyInCreation ==>
      s.out == Failure(NotCurrentlyInCreation(n))
    ensures recordSuppressed ==> s.reg.suppressedExceptions.None?
    ensures !recordSuppressed ==> s.reg.suppressedExceptions == caught.suppressedExceptions
    ensures (n in caught.inCreationCheckExclusions || n in caught.singletonsCurrentlyInCreation) ==>
      var pending := CatchOutcome(caught, n, outcome, recordSuppressed);
      && (pending.Failure? ==> s.out == Failure(pending.error) && SameEntryAt(caught, s.reg, n))
      && (pending.Success? && !pending.value.1 ==>
            s.out == Success(pending.value.0) && SameEntryAt(caught, s.reg, n))
      && (pending.Success? && pending.value.1 ==>
            && s.out == Success(pending.value.0)
            && n in s.reg.singletonObjects && s.reg.singletonObjects[n] == pending.value.0
            && n !in s.reg.earlySingletonObjects && n !in s.reg.singletonFactories
            && s.reg.registeredSingletons == Insert(caught.registeredSingletons, n))
  {
    FinishFrame(caught, n, outcome, recordSuppressed);
    Finished(caught, n, outcome, recordSuppressed)
  }

  /**
   The body of `FinishCreation`, kept apart so that its frame is proved once, in
   `FinishFrame`, rather than inside every caller's verification condition.
   */
  function Finished(caught: Registry, n: Name, outcome: Outcome, recordSuppressed: bool): Step<Obj> {
    var pending := CatchOutcome(caught, n, outcome, recordSuppressed);
    var closed := if recordSuppressed then caught.(suppressedExceptions := None) else caught;
    var unmarked := AfterSingletonCreation(closed, n);
    if unmarked.Failure? then Step(closed, Failure(unmarked.error))
    else if pending.Failure? then Step(unmarked.value, Failure(pending.error))
    else if pending.value.1 then Step(AddSingleton(unmarked.value, n, pending.value.0), Success(pending.value.0))
    else Step(unmarked.value, Success(pending.value.0))
  }

  /** What the finishing steps leave alone: the graph and every other name. */
  lemma FinishFrame(caught: Registry, n: Name, outcome: Outcome, recordSuppressed: bool)
    ensures var s := Finished(caught, n, outcome, recordSuppressed);
      && SameGraph(caught, s.reg)
      && (forall k :: k != n ==> SameEntryAt(caught, s.reg, k))
      && (forall k :: k != n ==>
            (IsSingletonCurrentlyInCreation(s.reg, k) <==> IsSingletonCurrentlyInCreation(caught, k)))
  {
    var s := Finished(caught, n, outcome, recordSuppressed);
    var pending := CatchOutcome(caught, n, outcome, recordSuppressed);
    var closed := if recordSuppressed then caught.(suppressedExceptions := None) else caught;
    var unmarked := AfterSingletonCreation(closed, n);
    var mid := if unmarked.Success? then unmarked.value else closed;
    MidFrame(caught, mid, n);
    if unmarked.Success? && pending.Success? && pending.value.1 {
      forall k | k != n ensures SameEntryAt(caught, s.reg, k) {
        assert SameEntryAt(mid, s.reg, k);
      }
    }
  }

  lemma MidFrame(caught: Registry, mid: Registry, n: Name)
    requires SameCache(caught, mid) && SameGraph(caught, mid)
    requires mid.singletonsCurrentlyInCreation - {n} == caught.singletonsCurrentlyInCreation - {n}
    ensures forall k :: k != n ==> SameEntryAt(caught, mid, k)
    ensures forall k :: k != n ==>
      (IsSingletonCurrentlyInCreation(mid, k) <==> IsSingletonCurrentlyInCreation(caught, k))
  {
    forall k | k != n ensures IsSingletonCurrentlyInCreation(mid, k) <==> IsSingletonCurrentlyInCreation(caught, k) {
      assert k in mid.singletonsCurrentlyInCreation <==> k in mid.singletonsCurrentlyInCreation - {n};
      assert k in caught.singletonsCurrentlyInCreation <==> k in caught.singletonsCurrentlyInCreation - {n};
    }
  }

  /**
   `getSingleton(beanName, singletonFactory)`: the existing full instance, or a
   guarded creation that runs the factory once and, on success, registers its
   product.
   */
  function GetOrCreate(r: Registry, n: Name, factory: Registry -> FactoryRun): (s: Step<Obj>)
    // an existing instance is returned without running the factory
    ensures n in r.singletonObjects ==> s == Step(r, Success(r.singletonObjects[n]))
    // no creation while the registry is being torn down
    ensures n !in r.singletonObjects && r.singletonsCurrentlyInDestruction ==>
      s == Step(r, Failure(CreationNotAllowed(n)))
    // no re-entrant creation of a name that is not excluded from the check
    ensures n !in r.singletonObjects && !r.singletonsCurrentlyInDestruction && IsCurrentlyInCreation(r, n) ==>
      s == Step(r, Failure(CurrentlyInCreation(n)))
    // past the entry check: whatever the factory did, the name is unmarked
    ensures PassesEntryCheck(r, n) ==>
      var run := factory(CreationEntry(r, n));
      && (n !in run.after.inCreationCheckExclusions ==> !IsSingletonCurrentlyInCreation(s.reg, n))
      && s.reg.inCreationCheckExclusions == run.after.inCreationCheckExclusions
      && s.reg.singletonsCurrentlyInDestruction == run.after.singletonsCurrentlyInDestruction
      && SameGraph(run.after, s.reg)
      && (forall k :: k != n ==> SameEntryAt(run.after, s.reg, k))
      && (forall k :: k != n ==>
            (IsSingletonCurrentlyInCreation(s.reg, k) <==> IsSingletonCurrentlyInCreation(run.after, k)))
    // an unmarked name at the end is reported, whatever the factory's outcome
    ensures PassesEntryCheck(r, n) ==>
      var run := factory(CreationEntry(r, n));
      n !in run.after.inCreationCheckExclusions && n !in run.after.singletonsCurrentlyInCreation ==>
        s.out == Failure(NotCurrentlyInCreation(n))
    // the outermost creation closes the collection it opened; inner ones leave it alone
    ensures PassesEntryCheck(r, n) ==>
      var run := factory(CreationEntry(r, n));
      && (r.suppressedExceptions.None? ==> s.reg.suppressedExceptions.None?)
      && (r.suppressedExceptions.Some? ==> s.reg.suppressedExceptions == run.after.suppressedExceptions)
    // the outcomes, once the name was found marked at the end
    ensures PassesEntryCheck(r, n) ==>
      var run := factory(CreationEntry(r, n));
      (n in run.after.inCreationCheckExclusions || n in run.after.singletonsCurrentlyInCreation) ==>
        match run.outcome
        case Created(o) =>
          && s.out == Success(o)
          && n in s.reg.singletonObjects && s.reg.singletonObjects[n] == o
          && n !in s.reg.earlySingletonObjects && n !in s.reg.singletonFactories
          && s.reg.registeredSingletons == Insert(run.after.registeredSingletons, n)
        case IllegalStateThrown(e) =>
          && (n in run.after.singletonObjects ==> s.out == Success(run.after.singletonObjects[n]))
          && (n !in run.after.singletonObjects ==> s.out == Failure(IllegalStateRethrown(e)))
          && SameEntryAt(run.after, s.reg, n)
        case CreationFailed(ex) =>
          && (r.suppressedExceptions.None? ==>
                s.out == Failure(BeanCreationFailed(
                  CreationException(ex.cause, ex.relatedCauses + Collected(run.after)))))
          && (r.suppressedExceptions.Some? ==> s.out == Failure(BeanCreationFailed(ex)))
          && SameEntryAt(run.after, s.reg, n)
        case OtherException(e) =>
          s.out == Failure(UncheckedThrown(e)) && SameEntryAt(run.after, s.reg, n)
  {
    if n in r.singletonObjects then Step(r, Success(r.singletonObjects[n]))
    else if r.singletonsCurrentlyInDestruction then Step(r, Failure(CreationNotAllowed(n)))
    else
      match BeforeSingletonCreation(r, n)
      case Failure(f) => Step(r, Failure(f))
      case Success(marked) =>
        var recordSuppressed := marked.suppressedExceptions.None?;
        var entry := if recordSuppressed then marked.(suppressedExceptions := Some([])) else marked;
        assert entry == CreationEntry(r, n);
        var run := factory(entry);
        FinishCreation(run.after, n, run.outcome, recordSuppressed)
  }

  /** The finishing steps keep the registry invariant. */
  lemma FinishCreationValid(caught: Registry, n: Name, outcome: Outcome, recordSuppressed: bool)
    requires Valid(caught)
    ensures Valid(FinishCreation(caught, n, outcome, recordSuppressed).reg)
  {
    var pending := CatchOutcome(caught, n, outcome, recordSuppressed);
    var closed := if recordSuppressed then caught.(suppressedExceptions := None) else caught;
    var unmarked := AfterSingletonCreation(closed, n);
    var mid := if unmarked.Success? then unmarked.value else closed;
    assert SameCache(caught, mid) && SameGraph(caught, mid);
    assert mid.suppressedExceptions == closed.suppressedExceptions;
    CacheValidTransfer(caught, mid);
    ValidAcross(caught, mid);
    if unmarked.Success? && pending.Success? && pending.value.1 {
      var after := AddSingleton(mid, n, pending.value.0);
      assert FinishCreation(caught, n, outcome, recordSuppressed).reg == after;
      ValidAcross(mid, after);
    } else {
      assert FinishCreation(caught, n, outcome, recordSuppressed).reg == mid;
    }
  }

  /** The invariant carries over to a registry with a valid cache, the same graph and no other suppressed exceptions. */
  lemma ValidAcross(a: Registry, b: Registry)
    requires Valid(a) && CacheValid(b) && SameGraph(a, b)
    requires b.suppressedExceptions.None? || b.suppressedExceptions == a.suppressedExceptions
    ensures Valid(b)
  {
  }

  /**
   `getSingleton(beanName, singletonFactory)` keeps the registry invariant
   whenever the factory's run does.
   */
  lemma GetOrCreateValid(r: Registry, n: Name, factory: Registry -> FactoryRun)
    requires Valid(r)
    requires PassesEntryCheck(r, n) ==> Valid(factory(CreationEntry(r, n)).after)
    ensures Valid(GetOrCreate(r, n, factory).reg)
  {
    if PassesEntryCheck(r, n) {
      var run := factory(CreationEntry(r, n));
      var recordSuppressed := r.suppressedExceptions.None?;
      FinishCreationValid(run.after, n, run.outcome, recordSuppressed);
      assert GetOrCreate(r, n, factory) == FinishCreation(run.after, n, run.outcome, recordSuppressed);
    }
  }
}

=== FILE: graph.dfy ===
/**
 The dependency graph: for each bean the beans that depend on it
 (`dependentBeanMap`) mirrored by each bean's dependencies
 (`dependenciesForBeanMap`), the containment relation (`containedBeanMap`), and
 the transitive `isDependent` query, which tolerates cycles by remembering the
 beans it has already expanded.
 */
module DependencyGraph {
  import opened Ordered
  import opened RegistryState

  /**
   `registerDependentBean(beanName, dependentBeanName)`: records that
   `dependentBeanName` must be destroyed before `beanName`, in both directions.
   An edge already present changes nothing.
   */
  function RegisterDependentBean(r: Registry, beanName: Name, dependentBeanName: Name): (r': Registry)
    ensures dependentBeanName in Members(r'.dependentBeanMap, beanName)
    ensures dependentBeanName in Members(r.dependentBeanMap, beanName) ==> r' == r
    ensures dependentBeanName !in Members(r.dependentBeanMap, beanName) ==>
      && Members(r'.dependentBeanMap, beanName) == Members(r.dependentBeanMap, beanName) + [dependentBeanName]
      && Members(r'.dependenciesForBeanMap, dependentBeanName)
           == Insert(Members(r.dependenciesForBeanMap, dependentBeanName), beanName)
    ensures forall k :: k != beanName ==> Members(r'.dependentBeanMap, k) == Members(r.dependentBeanMap, k)
    ensures forall k :: k != dependentBeanName ==>
      Members(r'.dependenciesForBeanMap, k) == Members(r.dependenciesForBeanMap, k)
    ensures r'.dependentBeanMap.Keys == r.dependentBeanMap.Keys + {beanName}
    ensures Mirrored(r) ==> beanName in Members(r'.dependenciesForBeanMap, dependentBeanName)
    ensures SameCache(r, r') && SameBookkeeping(r, r')
    ensures r'.containedBeanMap == r.containedBeanMap && r'.disposableBeans == r.disposableBeans
    ensures r'.disposableOrder == r.disposableOrder
  {
    if dependentBeanName in Members(r.dependentBeanMap, beanName) then r
    else
      AddEdgeFrame(r, beanName, dependentBeanName);
      AddEdgeMembers(r, beanName, dependentBeanName);
      AddEdge(r, beanName, dependentBeanName)
  }

  /**
   The edge update itself: append to the dependent set, insert into the dependency
   set. Kept apart from `RegisterDependentBean` so that its facts are proved once,
   in `AddEdgeFrame` and `AddEdgeMembers`, and each proof obligation stays small.
   */
  function AddEdge(r: Registry, beanName: Name, dependentBeanName: Name): Registry {
    r.(dependentBeanMap := r.dependentBeanMap[beanName :=
         Members(r.dependentBeanMap, beanName) + [dependentBeanName]],
       dependenciesForBeanMap := r.dependenciesForBeanMap[dependentBeanName :=
         Insert(Members(r.dependenciesForBeanMap, dependentBeanName), beanName)])
  }

  lemma AddEdgeFrame(r: Registry, beanName: Name, dependentBeanName: Name)
    ensures var r' := AddEdge(r, beanName, dependentBeanName);
      && r'.dependentBeanMap.Keys == r.dependentBeanMap.Keys + {beanName}
      && SameCache(r, r') && SameBookkeeping(r, r')
      && r'.containedBeanMap == r.containedBeanMap && r'.disposableBeans == r.disposableBeans
      && r'.disposableOrder == r.disposableOrder
  {
  }

  lemma AddEdgeMembers(r: Registry, beanName: Name, dependentBeanName: Name)
    ensures var r' := AddEdge(r, beanName, dependentBeanName);
      && Members(r'.dependentBeanMap, beanName) == Members(r.dependentBeanMap, beanName) + [dependentBeanName]
      && Members(r'.dependenciesForBeanMap, dependentBeanName)
           == Insert(Members(r.dependenciesForBeanMap, dependentBeanName), beanName)
      && (forall k :: k != beanName ==> Members(r'.dependentBeanMap, k) == Members(r.dependentBeanMap, k))
      && (forall k :: k != dependentBeanName ==>
            Members(r'.dependenciesForBeanMap, k) == Members(r.dependenciesForBeanMap, k))
  {
    var r' := AddEdge(r, beanName, dependentBeanName);
    forall k | k != beanName ensures Members(r'.dependentBeanMap, k) == Members(r.dependentBeanMap, k) {
    }
    forall k | k != dependentBeanName
      ensures Members(r'.dependenciesForBeanMap, k) == Members(r.dependenciesForBeanMap, k)
    {
    }
  }

  /** Registering a dependency keeps the graph invariant: sets stay proper and every edge stays mirrored. */
  lemma RegisterDependentBeanKeepsValid(r: Registry, beanName: Name, dependentBeanName: Name)
    requires GraphValid(r)
    ensures GraphValid(RegisterDependentBean(r, beanName, dependentBeanName))
  {
    if dependentBeanName !in Members(r.dependentBeanMap, beanName) {
      AddEdgeProper(r, beanName, dependentBeanName);
      AddEdgeMirrored(r, beanName, dependentBeanName);
    }
  }

  lemma AddEdgeProper(r: Registry, beanName: Name, dependentBeanName: Name)
    requires ProperSets(r.dependentBeanMap) && ProperSets(r.dependenciesForBeanMap)
    requires dependentBeanName !in Members(r.dependentBeanMap, beanName)
    ensures ProperSets(AddEdge(r, beanName, dependentBeanName).dependentBeanMap)
    ensures ProperSets(AddEdge(r, beanName, dependentBeanName).dependenciesForBeanMap)
  {
    NoDupConcat(Members(r.dependentBeanMap, beanName), [dependentBeanName]);
  }

  lemma AddEdgeMirrored(r: Registry, beanName: Name, dependentBeanName: Name)
    requires Mirrored(r)
    ensures Mirrored(AddEdge(r, beanName, dependentBeanName))
  {
    var r' := AddEdge(r, beanName, dependentBeanName);
    AddEdgeMembers(r, beanName, dependentBeanName);
    forall a, b | a in r'.dependentBeanMap && b in r'.dependentBeanMap[a]
      ensures a in Members(r'.dependenciesForBeanMap, b)
    {
      assert b in Members(r'.dependentBeanMap, a);
      if a != beanName || b != dependentBeanName {
        assert b in Members(r.dependentBeanMap, a);
      }
    }
  }

  /** Registering the same dependency twice is the same as registering it once. */
  lemma RegisterDependentBeanIdempotent(r: Registry, beanName: Name, dependentBeanName: Name)
    ensures var r1 := RegisterDependentBean(r, beanName, dependentBeanName);
      RegisterDependentBean(r1, beanName, dependentBeanName) == r1
  {
  }

  /**
   `registerContainedBean(containedBeanName, containingBeanName)`: records the
   containment and, the first time only, that the containing bean depends on
   the contained one for destruction order.
   */
  function RegisterContainedBean(r: Registry, containedBeanName: Name, containingBeanName: Name): (r': Registry)
    ensures containedBeanName in Members(r'.containedBeanMap, containingBeanName)
    ensures containedBeanName in Members(r.containedBeanMap, containingBeanName) ==> r' == r
    ensures containedBeanName !in Members(r.containedBeanMap, containingBeanName) ==>
      && Members(r'.containedBeanMap, containingBeanName)
           == Members(r.containedBeanMap, containingBeanName) + [containedBeanName]
      && containingBeanName in Members(r'.dependentBeanMap, containedBeanName)
      && (Mirrored(r) ==> containedBeanName in Members(r'.dependenciesForBeanMap, containingBeanName))
      && (forall k :: k != containedBeanName ==>
            Members(r'.dependentBeanMap, k) == Members(r.dependentBeanMap, k))
      && (forall k :: k != containingBeanName ==>
            Members(r'.dependenciesForBeanMap, k) == Members(r.dependenciesForBeanMap, k))
    ensures forall k :: k != containingBeanName ==>
      Members(r'.containedBeanMap, k) == Members(r.containedBeanMap, k)
    ensures SameCache(r, r') && SameBookkeeping(r, r')
    ensures r'.disposableBeans == r.disposableBeans && r'.disposableOrder == r.disposableOrder
  {
    if containedBeanName in Members(r.containedBeanMap, containingBeanName) then r
    else
      ContainedFrame(r, containedBeanName, containingBeanName);
      ContainedEdge(r, containedBeanName, containingBeanName);
      RegisterDependentBean(AddContained(r, containedBeanName, containingBeanName), containedBeanName, containingBeanName)
  }

  /**
   The containment update itself: insert into the containing bean's set. Kept
   apart for the same reason as `AddEdge`.
   */
  function AddContained(r: Registry, containedBeanName: Name, containingBeanName: Name): Registry {
    r.(containedBeanMap := r.containedBeanMap[containingBeanName :=
         Insert(Members(r.containedBeanMap, containingBeanName), containedBeanName)])
  }

  lemma ContainedFrame(r: Registry, containedBeanName: Name, containingBeanName: Name)
    requires containedBeanName !in Members(r.containedBeanMap, containingBeanName)
    ensures var r' := RegisterDependentBean(AddContained(r, containedBeanName, containingBeanName),
                                            containedBeanName, containingBeanName);
      && Members(r'.containedBeanMap, containingBeanName)
           == Members(r.containedBeanMap, containingBeanName) + [containedBeanName]
      && (forall k :: k != containingBeanName ==>
            Members(r'.containedBeanMap, k) == Members(r.containedBeanMap, k))
      && SameCache(r, r') && SameBookkeeping(r, r')
      && r'.disposableBeans == r.disposableBeans && r'.disposableOrder == r.disposableOrder
  {
    var r1 := AddContained(r, containedBeanName, containingBeanName);
    forall k | k != containingBeanName ensures Members(r1.containedBeanMap, k) == Members(r.containedBeanMap, k) {
    }
  }

  lemma ContainedEdge(r: Registry, containedBeanName: Name, containingBeanName: Name)
    requires containedBeanName !in Members(r.containedBeanMap, containingBeanName)
    ensures var r' := RegisterDependentBean(AddContained(r, containedBeanName, containingBeanName),
                                            containedBeanName, containingBeanName);
      && containingBeanName in Members(r'.dependentBeanMap, containedBeanName)
      && (Mirrored(r) ==> containedBeanName in Members(r'.dependenciesForBeanMap, containingBeanName))
      && (forall k :: k != containedBeanName ==>
            Members(r'.dependentBeanMap, k) == Members(r.dependentBeanMap, k))
      && (forall k :: k != containingBeanName ==>
            Members(r'.dependenciesForBeanMap, k) == Members(r.dependenciesForBeanMap, k))
  {
    var r1 := AddContained(r, containedBeanName, containingBeanName);
    assert r1.dependentBeanMap == r.dependentBeanMap && r1.dependenciesForBeanMap == r.dependenciesForBeanMap;
    assert Mirrored(r) ==> Mirrored(r1);
  }

  /** Registering a containment keeps the graph invariant. */
  lemma RegisterContainedBeanKeepsValid(r: Registry, containedBeanName: Name, containingBeanName: Name)
    requires GraphValid(r)
    ensures GraphValid(RegisterContainedBean(r, containedBeanName, containingBeanName))
  {
    AddContainedKeepsValid(r, containedBeanName, containingBeanName);
    if containedBeanName !in Members(r.containedBeanMap, containingBeanName) {
      RegisterDependentBeanKeepsValid(AddContained(r, containedBeanName, containingBeanName),
                                      containedBeanName, containingBeanName);
    }
  }

  lemma AddContainedKeepsValid(r: Registry, c: Name, o: Name)
    ensures GraphValid(r) ==> GraphValid(AddContained(r, c, o))
  {
    var r1 := AddContained(r, c, o);
    if GraphValid(r) {
      assert Mirrored(r1) by {
        assert r1.dependentBeanMap == r.dependentBeanMap;
        assert r1.dependenciesForBeanMap == r.dependenciesForBeanMap;
      }
      assert ProperSets(r1.containedBeanMap);
    }
  }

  /** `getDependentBeans`: a snapshot of the beans depending on `n`, empty when none. */
  function GetDependentBeans(r: Registry, n: Name): (names: seq<Name>)
    ensures GraphValid(r) ==> NoDup(names)
    ensures GraphValid(r) ==> forall d :: d in names ==> n in GetDependenciesForBean(r, d)
  {
    Members(r.dependentBeanMap, n)
  }

  /** `hasDependentBean`: whether a dependent set is registered for `n`. */
  predicate HasDependentBean(r: Registry, n: Name) {
    n in r.dependentBeanMap
  }

  /** With proper dependent sets, `n` has a registered dependent set exactly when it has dependents. */
  lemma HasDependentBeanIffDependents(r: Registry, n: Name)
    requires ProperSets(r.dependentBeanMap)
    ensures HasDependentBean(r, n) <==> GetDependentBeans(r, n) != []
  {
  }

  /** `getDependenciesForBean`: a snapshot of the beans `n` depends on, empty when none. */
  function GetDependenciesForBean(r: Registry, n: Name): (names: seq<Name>)
    ensures GraphValid(r) ==> NoDup(names)
    ensures Mirrored(r) ==> forall a :: n in Members(r.dependentBeanMap, a) ==> a in names
  {
    Members(r.dependenciesForBeanMap, n)
  }

  /** After `registerDependentBean(a, b)`, each side lists the other. */
  lemma RegisterThenDependencies(r: Registry, a: Name, b: Name)
    requires GraphValid(r)
    ensures var r' := RegisterDependentBean(r, a, b);
      && b in GetDependentBeans(r', a)
      && a in GetDependenciesForBean(r', b)
  {
  }

  // ---------------------------------------------------------------------------
  // isDependent

  /** A walk of at least one edge along `g`, from each bean to one of its dependents. */
  ghost predicate IsPath(g: map<Name, seq<Name>>, p: seq<Name>) {
    |p| >= 2 && forall i :: 0 <= i < |p| - 1 ==> p[i + 1] in Members(g, p[i])
  }

  /** `b` is reachable from `a` along one or more edges of `g`. */
  ghost predicate Reachable(g: map<Name, seq<Name>>, a: Name, b: Name) {
    exists p :: IsPath(g, p) && p[0] == a && p[|p| - 1] == b
  }

  /** The answer of a search and the beans it has marked as seen. */
  datatype Search = Search(found: bool, seen: set<Name>)

  /**
   The private `isDependent(beanName, dependentBeanName, alreadySeen)`: a depth-first
   search that gives up on beans already seen. Each iteration over the dependents
   marks `beanName` as seen before descending, so the number of graph keys not yet
   seen bounds the recursion.
   */
  function DependsSearch(g: map<Name, seq<Name>>, b: Name, d: Name, seen: set<Name>): (s: Search)
    ensures seen <= s.seen
    decreases |g.Keys - seen|, 0, 0
  {
    if b in seen then Search(false, seen)
    else if b !in g then Search(false, seen)
    else if d in g[b] then Search(true, seen)
    else
      assert g.Keys - seen == (g.Keys - (seen + {b})) + {b};
      DependsLoop(g, b, g[b], d, seen)
  }

  /** The loop over the dependents `ts` of `b`, threading one seen set through all descents. */
  function DependsLoop(g: map<Name, seq<Name>>, b: Name, ts: seq<Name>, d: Name, seen: set<Name>): (s: Search)
    ensures seen <= s.seen
    ensures ts != [] ==> b in s.seen
    decreases |g.Keys - (seen + {b})|, 1, |ts|
  {
    if ts == [] then Search(false, seen)
    else
      var first := DependsSearch(g, ts[0], d, seen + {b});
      if first.found then first
      else
        SubsetCard(g.Keys - (first.seen + {b}), g.Keys - (seen + {b}));
        DependsLoop(g, b, ts[1..], d, first.seen)
  }

  /** A positive answer comes with a path. */
  lemma {:induction false} SearchSound(g: map<Name, seq<Name>>, b: Name, d: Name, seen: set<Name>)
    ensures DependsSearch(g, b, d, seen).found ==> Reachable(g, b, d)
    decreases |g.Keys - seen|, 0, 0
  {
    if b !in seen && b in g {
      if d in g[b] {
        assert IsPath(g, [b, d]);
      } else {
        assert g.Keys - seen == (g.Keys - (seen + {b})) + {b};
        LoopSound(g, b, g[b], d, seen);
        if DependsSearch(g, b, d, seen).found {
          var t :| t in g[b] && Reachable(g, t, d);
          var p :| IsPath(g, p) && p[0] == t && p[|p| - 1] == d;
          var q := [b] + p;
          assert forall i :: 1 <= i < |q| - 1 ==> q[i + 1] == p[i] && q[i] == p[i - 1];
          assert IsPath(g, q);
        }
      }
    }
  }

  lemma {:induction false} LoopSound(g: map<Name, seq<Name>>, b: Name, ts: seq<Name>, d: Name, seen: set<Name>)
    ensures DependsLoop(g, b, ts, d, seen).found ==> exists t :: t in ts && Reachable(g, t, d)
    decreases |g.Keys - (seen + {b})|, 1, |ts|
  {
    if ts != [] {
      var first := DependsSearch(g, ts[0], d, seen + {b});
      SearchSound(g, ts[0], d, seen + {b});
      if !first.found {
        SubsetCard(g.Keys - (first.seen + {b}), g.Keys - (seen + {b}));
        LoopSound(g, b, ts[1..], d, first.seen);
        if DependsLoop(g, b, ts, d, seen).found {
          var t :| t in ts[1..] && Reachable(g, t, d);
          assert t in ts;
        }
      }
    }
  }

  /**
   A bean the search has finished with: `d` is not among its dependents, and
   each dependent has been seen or has no dependents of its own.
   */
  ghost predicate Explored(g: map<Name, seq<Name>>, d: Name, x: Name, seen: set<Name>) {
    && d !in Members(g, x)
    && forall y :: y in Members(g, x) ==> y in seen || Members(g, y) == []
  }

  /** A negative answer leaves every newly seen bean explored, the start included. */
  lemma {:induction false} SearchClosed(g: map<Name, seq<Name>>, b: Name, d: Name, seen: set<Name>)
    ensures var s := DependsSearch(g, b, d, seen);
      !s.found ==>
        && (b in s.seen || Members(g, b) == [])
        && forall x :: x in s.seen - seen ==> Explored(g, d, x, s.seen)
    decreases |g.Keys - seen|, 0, 0
  {
    if b !in seen && b in g && d !in g[b] {
      assert g.Keys - seen == (g.Keys - (seen + {b})) + {b};
      LoopClosed(g, b, g[b], d, seen);
    }
  }

  lemma {:induction false} LoopClosed(g: map<Name, seq<Name>>, b: Name, ts: seq<Name>, d: Name, seen: set<Name>)
    ensures var s := DependsLoop(g, b, ts, d, seen);
      !s.found ==>
        && (forall y :: y in ts ==> y in s.seen || Members(g, y) == [])
        && forall x :: x in s.seen - (seen + {b}) ==> Explored(g, d, x, s.seen)
    decreases |g.Keys - (seen + {b})|, 1, |ts|
  {
    if ts != [] {
      var first := DependsSearch(g, ts[0], d, seen + {b});
      SearchClosed(g, ts[0], d, seen + {b});
      if !first.found {
        SubsetCard(g.Keys - (first.seen + {b}), g.Keys - (seen + {b}));
        LoopClosed(g, b, ts[1..], d, first.seen);
        var s := DependsLoop(g, b, ts, d, seen);
        var rest := DependsLoop(g, b, ts[1..], d, first.seen);
        assert s == rest;
        if !s.found {
          forall x | x in first.seen - (seen + {b}) ensures Explored(g, d, x, s.seen) {
            ExploredGrows(g, d, x, first.seen, s.seen);
          }
          forall y | y in ts ensures y in s.seen || Members(g, y) == [] {
            if y != ts[0] {
              assert y in ts[1..];
            }
          }
        }
      }
    }
  }

  lemma ExploredGrows(g: map<Name, seq<Name>>, d: Name, x: Name, a: set<Name>, b: set<Name>)
    requires Explored(g, d, x, a) && a <= b
    ensures Explored(g, d, x, b)
  {
  }

  /** No path leaves a set of explored beans towards `d`. */
  lemma {:induction false} NoPathOut(g: map<Name, seq<Name>>, d: Name, done: set<Name>, p: seq<Name>)
    requires forall x :: x in done ==> Explored(g, d, x, done)
    requires IsPath(g, p)
    requires p[0] in done || Members(g, p[0]) == []
    ensures p[|p| - 1] != d
    decreases |p|
  {
    assert p[1] in Members(g, p[0]);
    assert Explored(g, d, p[0], done);
    if |p| > 2 {
      var q := p[1..];
      forall i | 0 <= i < |q| - 1 ensures q[i + 1] in Members(g, q[i]) {
        assert q[i] == p[i + 1] && q[i + 1] == p[i + 2];
      }
      NoPathOut(g, d, done, q);
    }
  }

  lemma SearchComplete(g: map<Name, seq<Name>>, b: Name, d: Name)
    ensures !DependsSearch(g, b, d, {}).found ==> !Reachable(g, b, d)
  {
    var s := DependsSearch(g, b, d, {});
    if !s.found {
      SearchClosed(g, b, d, {});
      forall p | IsPath(g, p) && p[0] == b ensures p[|p| - 1] != d {
        NoPathOut(g, d, s.seen, p);
      }
    }
  }

  /**
   `isDependent(beanName, dependentBeanName)`: whether `dependentBeanName` is
   reachable from `beanName` through registered dependents, cycles included.
   */
  function IsDependent(r: Registry, beanName: Name, dependentBeanName: Name): (b: bool)
    ensures b <==> Reachable(r.dependentBeanMap, beanName, dependentBeanName)
  {
    SearchSound(r.dependentBeanMap, beanName, dependentBeanName, {});
    SearchComplete(r.dependentBeanMap, beanName, dependentBeanName);
    DependsSearch(r.dependentBeanMap, beanName, dependentBeanName, {}).found
  }
}

=== FILE: ordered.dfy ===
/**
 Duplicate-free sequences, the model of Java's insertion-ordered `LinkedHashSet`
 and of the key order of a `LinkedHashMap`.
 */
module Ordered {

  /** No element occurs twice. */
  predicate NoDup<T(==)>(s: seq<T>) {
    forall i, j :: 0 <= i < j < |s| ==> s[i] != s[j]
  }

  /** `LinkedHashSet.add`: appends `x` unless it is already present. */
  function Insert<T(==,!new)>(s: seq<T>, x: T): (r: seq<T>)
    ensures forall y :: y in r <==> y in s || y == x
    ensures x in s ==> r == s
    ensures x !in s ==> |r| == |s| + 1 && r[..|s|] == s && r[|s|] == x
    ensures NoDup(s) ==> NoDup(r)
  {
    if x in s then s else s + [x]
  }

  /** `LinkedHashSet.remove`: drops every occurrence of `x`, keeping the order of the rest. */
  function Delete<T(==,!new)>(s: seq<T>, x: T): (r: seq<T>)
    ensures forall y :: y in r <==> y in s && y != x
    ensures |r| <= |s|
    ensures x !in s ==> r == s
    ensures NoDup(s) ==> NoDup(r)
  {
    if s == [] then []
    else if s[0] == x then Delete(s[1..], x)
    else
      var rest := Delete(s[1..], x);
      assert NoDup(s) ==> NoDup(s[1..]) && s[0] !in rest by {
        if NoDup(s) { NoDupTail(s); }
      }
      [s[0]] + rest
  }

  /** Dropping the head keeps a sequence duplicate-free, and the head does not recur in the tail. */
  lemma NoDupTail<T>(s: seq<T>)
    requires NoDup(s) && s != []
    ensures NoDup(s[1..]) && s[0] !in s[1..]
  {
    forall i | 0 <= i < |s[1..]| ensures s[1..][i] != s[0] {
      assert s[1..][i] == s[i + 1];
    }
  }

  /** The elements in the opposite order. */
  function Reverse<T>(s: seq<T>): (r: seq<T>)
    ensures |r| == |s|
    ensures forall i :: 0 <= i < |s| ==> r[i] == s[|s| - 1 - i]
  {
    if s == [] then [] else Reverse(s[1..]) + [s[0]]
  }

  /** Reversal keeps the elements, and keeps them distinct. */
  lemma ReverseKeeps<T>(s: seq<T>)
    ensures forall x :: x in Reverse(s) <==> x in s
    ensures NoDup(s) ==> NoDup(Reverse(s))
  {
    var r := Reverse(s);
    forall x | x in s ensures x in r {
      var i :| 0 <= i < |s| && s[i] == x;
      assert r[|s| - 1 - i] == x;
    }
  }

  /** The first `k` elements, or all of them when there are fewer. */
  function Take<T>(s: seq<T>, k: nat): (r: seq<T>)
    ensures |r| <= k && |r| <= |s|
    ensures |s| <= k ==> r == s
  {
    if |s| <= k then s else s[..k]
  }

  /** A duplicate-free sequence has as many distinct elements as it has positions. */
  lemma {:induction false} NoDupCard<T>(s: seq<T>)
    requires NoDup(s)
    ensures |set x | x in s| == |s|
  {
    if s != [] {
      NoDupTail(s);
      NoDupCard(s[1..]);
      assert (set x | x in s) == (set x | x in s[1..]) + {s[0]};
    }
  }

  /** A subset is no larger than its superset. */
  lemma {:induction false} SubsetCard<T>(a: set<T>, b: set<T>)
    requires a <= b
    ensures |a| <= |b|
  {
    if a != {} {
      var x :| x in a;
      SubsetCard(a - {x}, b - {x});
    }
  }

  /** Every element of a duplicate-free sequence sits at exactly one position. */
  function IndexOf<T(==)>(s: seq<T>, x: T): (i: nat)
    requires x in s
    ensures i < |s| && s[i] == x
    ensures forall j :: 0 <= j < i ==> s[j] != x
  {
    if s[0] == x then 0 else 1 + IndexOf(s[1..], x)
  }

  /** `a` occurs before `b`. */
  predicate Precedes<T(==)>(s: seq<T>, a: T, b: T) {
    a in s && b in s && IndexOf(s, a) < IndexOf(s, b)
  }

  /** Joining two duplicate-free sequences with no common element gives a duplicate-free one. */
  lemma NoDupConcat<T>(a: seq<T>, b: seq<T>)
    requires NoDup(a) && NoDup(b)
    requires forall x :: x in a ==> x !in b
    ensures NoDup(a + b)
  {
    forall i, j | 0 <= i < j < |a + b| ensures (a + b)[i] != (a + b)[j] {
      if j < |a| {
        assert (a + b)[i] == a[i] && (a + b)[j] == a[j];
      } else if i >= |a| {
        assert (a + b)[i] == b[i - |a|] && (a + b)[j] == b[j - |a|];
      } else {
        assert (a + b)[i] == a[i] && (a + b)[j] == b[j - |a|];
        assert a[i] in a && b[j - |a|] in b;
      }
    }
  }

  /** Positions in a prefix are not moved by what follows it. */
  lemma IndexOfAppend<T>(a: seq<T>, b: seq<T>, x: T)
    requires x in a
    ensures IndexOf(a + b, x) == IndexOf(a, x)
  {
    var i := IndexOf(a, x);
    assert (a + b)[i] == x;
    var k := IndexOf(a + b, x);
    assert k <= i;
    assert a[k] == (a + b)[k];
  }

  /** An element absent from a prefix sits after it. */
  lemma IndexOfAfter<T>(a: seq<T>, b: seq<T>, x: T)
    requires x !in a && x in b
    ensures IndexOf(a + b, x) == |a| + IndexOf(b, x)
  {
    var k := IndexOf(a + b, x);
    assert forall j :: 0 <= j < |a| ==> (a + b)[j] == a[j] && a[j] != x;
    var i := IndexOf(b, x);
    assert (a + b)[|a| + i] == x;
    assert b[k - |a|] == (a + b)[k];
  }
}

=== FILE: state.dfy ===
/**
 The state of a `DefaultSingletonBeanRegistry`: one immutable record holding the
 three cache tiers, the creation bookkeeping and the dependency and containment
 graph, together with the invariants the registry's operations keep.
 */
module RegistryState {
  import opened Wrappers
  import opened Ordered

  /** A bean name. Alias resolution is the identity in this model. */
  type Name = string

  /** Opaque identities of the objects the registry stores but never looks into. */
  datatype Obj = Obj(id: nat)
  datatype ObjectFactory = ObjectFactory(id: nat)
  datatype DisposableBean = DisposableBean(id: nat)
  datatype Exc = Exc(id: nat)

  /** A `BeanCreationException`: the exception itself and the related causes attached to it. */
  datatype CreationException = CreationException(cause: Exc, relatedCauses: seq<Exc>)

  /** The exceptions the registry throws or lets through. */
  datatype Fault =
    | AlreadyBound(name: Name, existing: Obj)      // registerSingleton on an occupied name
    | CreationNotAllowed(name: Name)               // BeanCreationNotAllowedException
    | CurrentlyInCreation(name: Name)              // BeanCurrentlyInCreationException
    | NotCurrentlyInCreation(name: Name)           // afterSingletonCreation's IllegalStateException
    | IllegalStateRethrown(exc: Exc)               // a factory's IllegalStateException, rethrown
    | BeanCreationFailed(exception: CreationException)
    | UncheckedThrown(exc: Exc)                    // any other exception out of a factory

  /** At most this many suppressed exceptions are kept. */
  const SuppressedExceptionsLimit: nat := 100

  datatype Registry = Registry(
    // the three cache tiers and the registration-order index
    singletonObjects: map<Name, Obj>,
    singletonFactories: map<Name, ObjectFactory>,
    earlySingletonObjects: map<Name, Obj>,
    registeredSingletons: seq<Name>,
    // creation bookkeeping
    singletonsCurrentlyInCreation: set<Name>,
    inCreationCheckExclusions: set<Name>,
    suppressedExceptions: Option<seq<Exc>>,
    singletonsCurrentlyInDestruction: bool,
    // disposable beans, in registration order
    disposableBeans: map<Name, DisposableBean>,
    disposableOrder: seq<Name>,
    // graph: containing bean to contained beans, bean to its dependents, bean to its dependencies
    containedBeanMap: map<Name, seq<Name>>,
    dependentBeanMap: map<Name, seq<Name>>,
    dependenciesForBeanMap: map<Name, seq<Name>>)

  /** A freshly constructed registry. */
  function Empty(): Registry {
    Registry(map[], map[], map[], [], {}, {}, None, false, map[], [], map[], map[], map[])
  }

  /** The set stored under `k` in a graph map, empty when there is none. */
  function Members(m: map<Name, seq<Name>>, k: Name): seq<Name> {
    if k in m then m[k] else []
  }

  /** Every entry of `a` is an entry of `b`. */
  ghost predicate SubMap<K, V>(a: map<K, V>, b: map<K, V>) {
    forall k :: k in a ==> k in b && a[k] == b[k]
  }

  /** The total number of graph entries, which teardown consumes. */
  function GraphSize(r: Registry): nat {
    |r.dependentBeanMap.Keys| + |r.containedBeanMap.Keys|
  }

  /** Name `k` has the same cache entries in `a` and in `b`. */
  ghost predicate SameEntryAt(a: Registry, b: Registry, k: Name) {
    && (k in a.singletonObjects <==> k in b.singletonObjects)
    && (k in a.singletonObjects ==> a.singletonObjects[k] == b.singletonObjects[k])
    && (k in a.earlySingletonObjects <==> k in b.earlySingletonObjects)
    && (k in a.earlySingletonObjects ==> a.earlySingletonObjects[k] == b.earlySingletonObjects[k])
    && (k in a.singletonFactories <==> k in b.singletonFactories)
    && (k in a.singletonFactories ==> a.singletonFactories[k] == b.singletonFactories[k])
    && (k in a.registeredSingletons <==> k in b.registeredSingletons)
  }

  /** The three tiers and the registration index agree. */
  ghost predicate SameCache(a: Registry, b: Registry) {
    && a.singletonObjects == b.singletonObjects
    && a.singletonFactories == b.singletonFactories
    && a.earlySingletonObjects == b.earlySingletonObjects
    && a.registeredSingletons == b.registeredSingletons
  }

  /** The creation bookkeeping agrees. */
  ghost predicate SameBookkeeping(a: Registry, b: Registry) {
    && a.singletonsCurrentlyInCreation == b.singletonsCurrentlyInCreation
    && a.inCreationCheckExclusions == b.inCreationCheckExclusions
    && a.suppressedExceptions == b.suppressedExceptions
    && a.singletonsCurrentlyInDestruction == b.singletonsCurrentlyInDestruction
  }

  /** The disposable beans and the graph agree. */
  ghost predicate SameGraph(a: Registry, b: Registry) {
    && a.disposableBeans == b.disposableBeans
    && a.disposableOrder == b.disposableOrder
    && a.containedBeanMap == b.containedBeanMap
    && a.dependentBeanMap == b.dependentBeanMap
    && a.dependenciesForBeanMap == b.dependenciesForBeanMap
  }

  /**
   The cache-tier invariant: a full instance excludes an early instance and a
   factory, an early instance excludes a factory, and the registration index
   lists, once each, exactly the names present in some tier.
   */
  ghost predicate CacheValid(r: Registry) {
    TiersValid(r.singletonObjects, r.earlySingletonObjects, r.singletonFactories, r.registeredSingletons)
  }

  ghost predicate TiersValid(objs: map<Name, Obj>, early: map<Name, Obj>, factories: map<Name, ObjectFactory>,
                             registered: seq<Name>) {
    && (forall k :: k in objs ==> k !in early && k !in factories)
    && (forall k :: k in early ==> k !in factories)
    && NoDup(registered)
    && (forall k :: k in registered <==> k in objs || k in early || k in factories)
  }

  /** The cache-tier invariant depends on the tiers and the index alone. */
  lemma CacheValidTransfer(a: Registry, b: Registry)
    requires CacheValid(a) && SameCache(a, b)
    ensures CacheValid(b)
  {
  }

  /** The suppressed exceptions, when collected, are distinct and at most the limit. */
  ghost predicate SuppressedValid(r: Registry) {
    r.suppressedExceptions.Some? ==>
      NoDup(r.suppressedExceptions.value) && |r.suppressedExceptions.value| <= SuppressedExceptionsLimit
  }

  /** The disposable order lists each disposable bean's name exactly once. */
  ghost predicate DisposalValid(r: Registry) {
    && NoDup(r.disposableOrder)
    && (forall k :: k in r.disposableOrder <==> k in r.disposableBeans)
  }

  /** Every set of a graph map is non-empty and duplicate-free. */
  ghost predicate ProperSets(m: map<Name, seq<Name>>) {
    forall k :: k in m ==> m[k] != [] && NoDup(m[k])
  }

  /** Each dependent edge is mirrored by a dependency edge. */
  ghost predicate Mirrored(r: Registry) {
    forall a, b :: a in r.dependentBeanMap && b in r.dependentBeanMap[a] ==>
      a in Members(r.dependenciesForBeanMap, b)
  }

  ghost predicate GraphValid(r: Registry) {
    && ProperSets(r.dependentBeanMap)
    && ProperSets(r.containedBeanMap)
    && ProperSets(r.dependenciesForBeanMap)
    && Mirrored(r)
  }

  ghost predicate Valid(r: Registry) {
    CacheValid(r) && SuppressedValid(r) && DisposalValid(r) && GraphValid(r)
  }

  /** A freshly constructed registry satisfies every invariant. */
  lemma EmptyValid()
    ensures Valid(Empty())
  {
    assert Empty().registeredSingletons == [];
  }
}

=== FILE: teardown.dfy ===
/**
 Disposable-bean registration and teardown: `destroySingleton` detaches a
 singleton from the cache and hands its disposable to `destroyBean`, which
 destroys the bean's dependents first, then the bean itself, then the beans it
 contains, and finally scrubs the bean from the dependency graph.

 The `destroy()` callbacks are not executed here; each one is recorded, in the
 order it would run, in the log returned next to the final registry.
 */
module Teardown {
  import opened Wrappers
  import opened Ordered
  import opened RegistryState
  import opened InstanceCache

  /** The registry after a teardown and the names whose disposable was destroyed, in order. */
  datatype Disposal = Disposal(reg: Registry, log: seq<Name>)

  /** `registerDisposableBean`: binds the disposable, keeping the first-registration position of the name. */
  function RegisterDisposableBean(r: Registry, n: Name, bean: DisposableBean): (r': Registry)
    ensures n in r'.disposableBeans && r'.disposableBeans[n] == bean
    ensures forall k :: k != n ==> (k in r'.disposableBeans <==> k in r.disposableBeans)
    ensures forall k :: k != n && k in r.disposableBeans ==> r'.disposableBeans[k] == r.disposableBeans[k]
    ensures n in r.disposableOrder ==> r'.disposableOrder == r.disposableOrder
    ensures n !in r.disposableOrder ==> r'.disposableOrder == r.disposableOrder + [n]
    ensures DisposalValid(r) ==> DisposalValid(r')
    ensures SameCache(r, r') && SameBookkeeping(r, r')
    ensures r'.containedBeanMap == r.containedBeanMap && r'.dependentBeanMap == r.dependentBeanMap
    ensures r'.dependenciesForBeanMap == r.dependenciesForBeanMap
  {
    r.(disposableBeans := r.disposableBeans[n := bean],
       disposableOrder := Insert(r.disposableOrder, n))
  }

  /** `clearSingletonCache`: empties the three tiers and the index and ends the destruction phase. */
  function ClearSingletonCache(r: Registry): (r': Registry)
    ensures r'.singletonObjects == map[] && r'.singletonFactories == map[]
    ensures r'.earlySingletonObjects == map[] && r'.registeredSingletons == []
    ensures !r'.singletonsCurrentlyInDestruction
    ensures r'.singletonsCurrentlyInCreation == r.singletonsCurrentlyInCreation
    ensures r'.inCreationCheckExclusions == r.inCreationCheckExclusions
    ensures r'.suppressedExceptions == r.suppressedExceptions
    ensures SameGraph(r, r')
    ensures CacheValid(r')
  {
    r.(singletonObjects := map[], singletonFactories := map[], earlySingletonObjects := map[],
       registeredSingletons := [], singletonsCurrentlyInDestruction := false)
  }

  /**
   Removes `n` from every set of a graph map and drops the sets this leaves
   empty, as the iterator loop at the end of `destroyBean` does.
   */
  function Scrub(m: map<Name, seq<Name>>, n: Name): (m': map<Name, seq<Name>>)
    ensures forall k :: k in m' <==> k in m && (exists x :: x in m[k] && x != n)
    ensures forall k :: k in m' ==> (forall x :: x in m'[k] <==> x in m[k] && x != n)
    ensures ProperSets(m) ==> ProperSets(m')
    ensures |m'.Keys| <= |m.Keys|
  {
    var m' := map k | k in m && Delete(m[k], n) != [] :: Delete(m[k], n);
    forall k | k in m ensures Delete(m[k], n) != [] <==> exists x :: x in m[k] && x != n {
      if Delete(m[k], n) != [] {
        assert Delete(m[k], n)[0] in Delete(m[k], n);
      }
      if exists x :: x in m[k] && x != n {
        var x :| x in m[k] && x != n;
        assert x in Delete(m[k], n);
      }
    }
    SubsetCard(m'.Keys, m.Keys);
    m'
  }

  /** Name `x` is in no tier and has no disposable. */
  ghost predicate Gone(r: Registry, x: Name) {
    && x !in r.singletonObjects && x !in r.earlySingletonObjects && x !in r.singletonFactories
    && x !in r.disposableBeans
  }

  /**
   Teardown only removes: the tiers, the disposables and the graph maps of `b`
   are contained in those of `a`, and the creation bookkeeping is untouched.
   */
  ghost predicate Shrinks(a: Registry, b: Registry) {
    && TiersShrink(a, b)
    && b.disposableBeans.Keys <= a.disposableBeans.Keys
    && GraphShrinks(a, b)
    && SameBookkeeping(a, b)
  }

  ghost predicate TiersShrink(a: Registry, b: Registry) {
    && b.singletonObjects.Keys <= a.singletonObjects.Keys
    && b.earlySingletonObjects.Keys <= a.earlySingletonObjects.Keys
    && b.singletonFactories.Keys <= a.singletonFactories.Keys
  }

  ghost predicate GraphShrinks(a: Registry, b: Registry) {
    && SubMap(b.containedBeanMap, a.containedBeanMap)
    && SubMap(b.dependenciesForBeanMap, a.dependenciesForBeanMap)
    && b.dependentBeanMap.Keys <= a.dependentBeanMap.Keys
    && (forall k, x :: k in b.dependentBeanMap && x in b.dependentBeanMap[k] ==>
          x in a.dependentBeanMap[k])
  }

  /** A step that leaves the tiers alone shrinks them. */
  lemma SameTiersShrink(a: Registry, b: Registry)
    requires SameCache(a, b)
    ensures TiersShrink(a, b)
  {
  }

  /**
   What every teardown step from `a` to `b` guarantees: it only removes, it
   consumes graph entries, a containing bean whose entry is gone has had all
   its contained beans destroyed, a bean whose dependency entry is gone is no
   longer listed as anyone's dependent, and the disposable order stays in step
   with the disposables.
   */
  ghost predicate Retires(a: Registry, b: Registry) {
    && Shrinks(a, b)
    && GraphSize(b) <= GraphSize(a)
    && (forall k, c :: k in a.containedBeanMap && k !in b.containedBeanMap && c in a.containedBeanMap[k] ==>
          c !in b.disposableBeans)
    && (forall x, k ::
          x in a.dependenciesForBeanMap && x !in b.dependenciesForBeanMap && k in b.dependentBeanMap ==>
          x !in b.dependentBeanMap[k])
    && (DisposalValid(a) ==> DisposalValid(b))
  }

  /**
   The invariants teardown keeps beyond those in `Retires`: the cache tiers are
   consistent and every dependent set is non-empty and duplicate-free.
   */
  ghost predicate TeardownInvariant(r: Registry) {
    CacheValid(r) && ProperSets(r.dependentBeanMap)
  }

  /**
   The log of a step from `a` to `b` lists, once each, the disposables the step
   took away, plus the names in `own` whose disposable was already detached.
   */
  ghost predicate Logged(a: Registry, b: Registry, log: seq<Name>, own: seq<Name>) {
    && NoDup(log)
    && (forall x :: x in log <==> (x in a.disposableBeans && x !in b.disposableBeans) || x in own)
  }

  lemma ShrinksTrans(a: Registry, b: Registry, c: Registry)
    requires Shrinks(a, b) && Shrinks(b, c)
    ensures Shrinks(a, c)
  {
  }

  /** Two retiring steps make one. */
  lemma RetiresTrans(a: Registry, b: Registry, c: Registry)
    requires Retires(a, b) && Retires(b, c)
    ensures Retires(a, c)
  {
    ShrinksTrans(a, b, c);
  }

  /** Two logged steps make one whose log is the concatenation. */
  lemma LoggedTrans(a: Registry, b: Registry, c: Registry, log1: seq<Name>, log2: seq<Name>)
    requires Shrinks(a, b) && Shrinks(b, c)
    requires Logged(a, b, log1, []) && Logged(b, c, log2, [])
    ensures Logged(a, c, log1 + log2, [])
  {
    NoDupConcat(log1, log2);
  }

  /** Removing the dependent entry of `n` consumes it. */
  lemma DependentEntrySmaller(r: Registry, n: Name)
    requires n in r.dependentBeanMap
    ensures GraphSize(r.(dependentBeanMap := r.dependentBeanMap - {n})) < GraphSize(r)
  {
    assert r.dependentBeanMap.Keys == (r.dependentBeanMap - {n}).Keys + {n};
  }

  /** Removing the contained entry of `n` consumes it. */
  lemma ContainedEntrySmaller(r: Registry, n: Name)
    requires n in r.containedBeanMap
    ensures GraphSize(r.(containedBeanMap := r.containedBeanMap - {n})) < GraphSize(r)
  {
    assert r.containedBeanMap.Keys == (r.containedBeanMap - {n}).Keys + {n};
  }

  /** Removing the dependent entry of `n` is a retiring step that consumes one graph entry. */
  lemma DetachDependents(r: Registry, n: Name)
    requires n in r.dependentBeanMap
    ensures var r' := r.(dependentBeanMap := r.dependentBeanMap - {n});
      Retires(r, r') && GraphSize(r') < GraphSize(r) && Logged(r, r', [], [])
  {
    var r' := r.(dependentBeanMap := r.dependentBeanMap - {n});
    DependentEntrySmaller(r, n);
    SameTiersShrink(r, r');
    assert GraphShrinks(r, r');
  }

  /** Removing the contained entry of `n` consumes one graph entry. */
  lemma DetachContained(r: Registry, n: Name)
    requires n in r.containedBeanMap
    ensures var r' := r.(containedBeanMap := r.containedBeanMap - {n});
      Shrinks(r, r') && GraphSize(r') < GraphSize(r)
  {
    var r' := r.(containedBeanMap := r.containedBeanMap - {n});
    ContainedEntrySmaller(r, n);
    SameTiersShrink(r, r');
    assert GraphShrinks(r, r');
  }

  /** The first half of `destroySingleton`: `removeSingleton`, then take away the disposable. */
  function DetachSingleton(r: Registry, n: Name): (r': Registry)
    ensures Retires(r, r') && Gone(r', n)
    ensures CacheValid(r) ==> CacheValid(r')
    ensures forall k :: k != n ==> (k in r'.disposableBeans <==> k in r.disposableBeans)
    ensures forall k :: k != n ==> SameEntryAt(r, r', k)
    ensures forall k :: k != n && k in r.disposableBeans ==> r'.disposableBeans[k] == r.disposableBeans[k]
    ensures r'.containedBeanMap == r.containedBeanMap && r'.dependentBeanMap == r.dependentBeanMap
    ensures r'.dependenciesForBeanMap == r.dependenciesForBeanMap
  {
    DetachFacts(r, n);
    DetachOthers(r, n);
    Detached(r, n)
  }

  /**
   The body of `DetachSingleton`, kept apart so that its facts are proved once,
   in `DetachFacts`, and each proof obligation stays small.
   */
  function Detached(r: Registry, n: Name): Registry {
    var r1 := RemoveSingleton(r, n);
    r1.(disposableBeans := r1.disposableBeans - {n}, disposableOrder := Delete(r1.disposableOrder, n))
  }

  lemma DetachFacts(r: Registry, n: Name)
    ensures Retires(r, Detached(r, n)) && Gone(Detached(r, n), n)
    ensures CacheValid(r) ==> CacheValid(Detached(r, n))
    ensures forall k :: k != n ==> (k in Detached(r, n).disposableBeans <==> k in r.disposableBeans)
    ensures Detached(r, n).containedBeanMap == r.containedBeanMap
    ensures Detached(r, n).dependentBeanMap == r.dependentBeanMap
    ensures Detached(r, n).dependenciesForBeanMap == r.dependenciesForBeanMap
  {
    var r1 := RemoveSingleton(r, n);
    var r' := Detached(r, n);
    assert r'.singletonObjects == r.singletonObjects - {n};
    assert r'.earlySingletonObjects == r.earlySingletonObjects - {n};
    assert r'.singletonFactories == r.singletonFactories - {n};
    assert r'.disposableBeans == r.disposableBeans - {n};
    assert r'.disposableOrder == Delete(r.disposableOrder, n);
    assert SameBookkeeping(r, r');
    DetachShrinks(r, r', n);
    assert CacheValid(r) ==> CacheValid(r') by {
      if CacheValid(r) {
        CacheValidTransfer(r1, r');
      }
    }
  }

  /** Detaching `n` leaves the cache entries and the disposable of every other name as they were. */
  lemma DetachOthers(r: Registry, n: Name)
    ensures forall k :: k != n ==> SameEntryAt(r, Detached(r, n), k)
    ensures forall k :: k != n && k in r.disposableBeans ==> Detached(r, n).disposableBeans[k] == r.disposableBeans[k]
  {
    var r1 := RemoveSingleton(r, n);
    var r' := Detached(r, n);
    assert r' == r1.(disposableBeans := r1.disposableBeans - {n}, disposableOrder := Delete(r1.disposableOrder, n));
    forall k | k != n ensures SameEntryAt(r, r', k) {
      assert SameEntryAt(r, r1, k);
    }
  }

  lemma DetachShrinks(r: Registry, r': Registry, n: Name)
    requires r'.singletonObjects == r.singletonObjects - {n}
    requires r'.earlySingletonObjects == r.earlySingletonObjects - {n}
    requires r'.singletonFactories == r.singletonFactories - {n}
    requires r'.disposableBeans == r.disposableBeans - {n}
    requires r'.disposableOrder == Delete(r.disposableOrder, n)
    requires r'.containedBeanMap == r.containedBeanMap && r'.dependentBeanMap == r.dependentBeanMap
    requires r'.dependenciesForBeanMap == r.dependenciesForBeanMap
    requires SameBookkeeping(r, r')
    ensures Retires(r, r') && Gone(r', n)
  {
    assert TiersShrink(r, r');
    SameGraphRetires(r, r');
    DisposalDelete(r, r', n);
  }

  /** A step that leaves the graph alone shrinks it and consumes nothing. */
  lemma SameGraphRetires(a: Registry, b: Registry)
    requires a.containedBeanMap == b.containedBeanMap && a.dependentBeanMap == b.dependentBeanMap
    requires a.dependenciesForBeanMap == b.dependenciesForBeanMap
    ensures GraphShrinks(a, b) && GraphSize(b) == GraphSize(a)
  {
  }

  /** Taking away the disposable of `n` keeps the disposable order in step. */
  lemma DisposalDelete(a: Registry, b: Registry, n: Name)
    requires b.disposableBeans == a.disposableBeans - {n}
    requires b.disposableOrder == Delete(a.disposableOrder, n)
    ensures DisposalValid(a) ==> DisposalValid(b)
  {
  }

  /** `destroySingletons` over a snapshot: `destroySingleton` of each name in turn. */
  function DestroyEach(r: Registry, names: seq<Name>): (t: Disposal)
    ensures Retires(r, t.reg) && Logged(r, t.reg, t.log, [])
    ensures forall x :: x in names ==> Gone(t.reg, x)
    decreases GraphSize(r), 3, |names|
  {
    if names == [] then Disposal(r, [])
    else
      var t1 := DestroySingleton(r, names[0]);
      var t2 := DestroyEach(t1.reg, names[1..]);
      RetiresTrans(r, t1.reg, t2.reg);
      LoggedTrans(r, t1.reg, t2.reg, t1.log, t2.log);
      assert forall x :: x in names ==> x == names[0] || x in names[1..];
      Disposal(t2.reg, t1.log + t2.log)
  }

  /**
   After `n` is destroyed, going from `r` to `after`: `n` has no graph entry,
   is nobody's dependent, and every bean `n` contained in `r` is destroyed.
   */
  ghost predicate Scrubbed(r: Registry, n: Name, after: Registry) {
    && n !in after.dependentBeanMap && n !in after.containedBeanMap && n !in after.dependenciesForBeanMap
    && (forall k :: k in after.dependentBeanMap ==> n !in after.dependentBeanMap[k])
    && (forall c :: c in Members(r.containedBeanMap, n) ==> c !in after.disposableBeans)
  }

  /** The log entry `destroyBean` makes for its own disposable. */
  function Own(n: Name, bean: Option<DisposableBean>): seq<Name> {
    if bean.Some? then [n] else []
  }

  /**
   `destroySingleton`: removes `n` from the cache, detaches its disposable, and
   destroys the bean. Afterwards `n` is in no tier and has no disposable, `n`
   is logged exactly when it had a disposable, and `n` is scrubbed from the graph.
   */
  function DestroySingleton(r: Registry, n: Name): (t: Disposal)
    ensures Retires(r, t.reg) && Logged(r, t.reg, t.log, [])
    ensures Gone(t.reg, n) && (n in t.log <==> n in r.disposableBeans)
    ensures Scrubbed(r, n, t.reg)
    decreases GraphSize(r), 2, 0
  {
    var bean := if n in r.disposableBeans then Some(r.disposableBeans[n]) else None;
    var r2 := DetachSingleton(r, n);
    var t := DestroyBean(r2, n, bean);
    SingletonDone(r, n, r2, t.reg, t.log);
    t
  }

  lemma SingletonDone(r: Registry, n: Name, r2: Registry, after: Registry, log: seq<Name>)
    requires Retires(r, r2) && Gone(r2, n)
    requires forall k :: k != n ==> (k in r2.disposableBeans <==> k in r.disposableBeans)
    requires r2.containedBeanMap == r.containedBeanMap
    requires Retires(r2, after) && Scrubbed(r2, n, after)
    requires Logged(r2, after, log, if n in r.disposableBeans then [n] else [])
    ensures Retires(r, after) && Logged(r, after, log, [])
    ensures Gone(after, n) && (n in log <==> n in r.disposableBeans)
    ensures Scrubbed(r, n, after)
  {
    RetiresTrans(r, r2, after);
  }

  /**
   `destroyBean`: destroys the dependents of `n`, then the disposable `bean`
   when there is one, then the beans `n` contains, and finally removes `n` from
   every dependent set and drops its dependency entry. When the disposable of
   `n` has already been detached, the log lists the destroyed disposables and
   `n` itself exactly when `bean` is present.
   */
  function DestroyBean(r: Registry, n: Name, bean: Option<DisposableBean>): (t: Disposal)
    ensures Retires(r, t.reg) && Scrubbed(r, n, t.reg)
    ensures n !in r.disposableBeans ==> Logged(r, t.reg, t.log, Own(n, bean))
    decreases GraphSize(r), 1, 0
  {
    // dependents first
    var t1 := DestroyDependents(r, n);
    // then the bean itself
    var own := Own(n, bean);
    // then the beans it contains
    var t3 := DestroyContained(t1.reg, n);
    // finally the graph entries that still mention it
    var r5 := ScrubBean(t3.reg, n);
    BeanDone(r, n, own, t1, t3, r5);
    Disposal(r5, t1.log + own + t3.log)
  }

  lemma BeanDone(r: Registry, n: Name, own: seq<Name>, t1: Disposal, t3: Disposal, r5: Registry)
    requires own == [] || own == [n]
    requires Retires(r, t1.reg) && Logged(r, t1.reg, t1.log, []) && n !in t1.reg.dependentBeanMap
    requires Retires(t1.reg, t3.reg) && Logged(t1.reg, t3.reg, t3.log, []) && n !in t3.reg.containedBeanMap
    requires forall c :: c in Members(t1.reg.containedBeanMap, n) ==> Gone(t3.reg, c)
    requires Retires(t3.reg, r5) && r5.disposableBeans == t3.reg.disposableBeans
    requires r5.containedBeanMap == t3.reg.containedBeanMap
    requires n !in r5.dependenciesForBeanMap
    requires forall k :: k in r5.dependentBeanMap ==> n !in r5.dependentBeanMap[k]
    ensures Retires(r, r5) && Scrubbed(r, n, r5)
    ensures n !in r.disposableBeans ==> Logged(r, r5, t1.log + own + t3.log, own)
  {
    RetiresTrans(r, t1.reg, t3.reg);
    RetiresTrans(r, t3.reg, r5);
    BeanScrubbed(r, n, t1.reg, t3.reg, r5);
    if n !in r.disposableBeans {
      BeanLogged(r, n, own, t1, t3, r5);
    }
  }

  lemma BeanScrubbed(r: Registry, n: Name, r1: Registry, r3: Registry, r5: Registry)
    requires Retires(r, r1) && n !in r1.dependentBeanMap
    requires Retires(r1, r3) && n !in r3.containedBeanMap
    requires forall c :: c in Members(r1.containedBeanMap, n) ==> Gone(r3, c)
    requires Shrinks(r3, r5) && r5.disposableBeans == r3.disposableBeans
    requires r5.containedBeanMap == r3.containedBeanMap
    requires n !in r5.dependenciesForBeanMap
    requires forall k :: k in r5.dependentBeanMap ==> n !in r5.dependentBeanMap[k]
    ensures Scrubbed(r, n, r5)
  {
    forall c | c in Members(r.containedBeanMap, n) ensures c !in r5.disposableBeans {
      if n in r1.containedBeanMap {
        assert r1.containedBeanMap[n] == r.containedBeanMap[n];
      }
    }
  }

  lemma BeanLogged(r: Registry, n: Name, own: seq<Name>, t1: Disposal, t3: Disposal, r5: Registry)
    requires own == [] || own == [n]
    requires n !in r.disposableBeans
    requires Shrinks(r, t1.reg) && Logged(r, t1.reg, t1.log, [])
    requires Shrinks(t1.reg, t3.reg) && Logged(t1.reg, t3.reg, t3.log, [])
    requires r5.disposableBeans == t3.reg.disposableBeans
    ensures Logged(r, r5, t1.log + own + t3.log, own)
  {
    NoDupConcat(t1.log, own);
    NoDupConcat(t1.log + own, t3.log);
  }

  /** The last phase of `destroyBean`: remove `n` from every dependent set and drop its dependency entry. */
  function ScrubBean(r: Registry, n: Name): (r': Registry)
    ensures Retires(r, r') && SameCache(r, r')
    ensures ProperSets(r.dependentBeanMap) ==> ProperSets(r'.dependentBeanMap)
    ensures r'.disposableBeans == r.disposableBeans && r'.containedBeanMap == r.containedBeanMap
    ensures n !in r'.dependenciesForBeanMap
    ensures forall k :: k in r'.dependentBeanMap ==> n !in r'.dependentBeanMap[k]
    ensures forall k :: k != n && k in r.dependenciesForBeanMap ==>
      k in r'.dependenciesForBeanMap && r'.dependenciesForBeanMap[k] == r.dependenciesForBeanMap[k]
    ensures forall k, x :: k in r.dependentBeanMap && x in r.dependentBeanMap[k] && x != n ==>
      k in r'.dependentBeanMap && x in r'.dependentBeanMap[k]
  {
    var r' := r.(dependentBeanMap := Scrub(r.dependentBeanMap, n),
                 dependenciesForBeanMap := r.dependenciesForBeanMap - {n});
    ScrubShrinks(r, r', n);
    assert forall k :: k in r'.dependentBeanMap ==> n !in r'.dependentBeanMap[k];
    ScrubRetires(r, r', n);
    r'
  }

  /** Scrubbing keeps the dependent sets non-empty and duplicate-free and leaves the tiers alone. */
  lemma ScrubBeanKeeps(r: Registry, n: Name)
    requires TeardownInvariant(r)
    ensures TeardownInvariant(ScrubBean(r, n))
  {
    CacheValidTransfer(r, ScrubBean(r, n));
  }

  lemma ScrubShrinks(r: Registry, r': Registry, n: Name)
    requires r' == r.(dependentBeanMap := Scrub(r.dependentBeanMap, n),
                      dependenciesForBeanMap := r.dependenciesForBeanMap - {n})
    ensures Shrinks(r, r') && GraphSize(r') <= GraphSize(r)
  {
    SameTiersShrink(r, r');
    assert GraphShrinks(r, r');
  }

  lemma ScrubRetires(r: Registry, r': Registry, n: Name)
    requires r'.containedBeanMap == r.containedBeanMap
    requires r'.disposableBeans == r.disposableBeans && r'.disposableOrder == r.disposableOrder
    requires r'.dependenciesForBeanMap == r.dependenciesForBeanMap - {n}
    requires forall k :: k in r'.dependentBeanMap ==> n !in r'.dependentBeanMap[k]
    requires Shrinks(r, r') && GraphSize(r') <= GraphSize(r)
    ensures Retires(r, r')
  {
    forall x, k | x in r.dependenciesForBeanMap && x !in r'.dependenciesForBeanMap && k in r'.dependentBeanMap
      ensures x !in r'.dependentBeanMap[k]
    {
      assert x == n;
    }
  }

  /** The first phase of `destroyBean`: detach the dependents of `n` and destroy each of them. */
  function DestroyDependents(r: Registry, n: Name): (t: Disposal)
    ensures Retires(r, t.reg) && Logged(r, t.reg, t.log, [])
    ensures n !in t.reg.dependentBeanMap
    ensures forall d :: d in Members(r.dependentBeanMap, n) ==> Gone(t.reg, d)
    ensures n !in r.dependentBeanMap ==> t == Disposal(r, [])
    decreases GraphSize(r), 0, 0
  {
    if n in r.dependentBeanMap then
      var r' := r.(dependentBeanMap := r.dependentBeanMap - {n});
      DetachDependents(r, n);
      var t := DestroyEach(r', r.dependentBeanMap[n]);
      RetiresTrans(r, r', t.reg);
      LoggedTrans(r, r', t.reg, [], t.log);
      Disposal(t.reg, t.log)
    else Disposal(r, [])
  }

  /** The third phase of `destroyBean`: detach the contained beans of `n` and destroy each of them. */
  function DestroyContained(r: Registry, n: Name): (t: Disposal)
    ensures Retires(r, t.reg) && Logged(r, t.reg, t.log, [])
    ensures n !in t.reg.containedBeanMap
    ensures forall c :: c in Members(r.containedBeanMap, n) ==> Gone(t.reg, c)
    ensures n !in r.containedBeanMap ==> t == Disposal(r, [])
    decreases GraphSize(r), 0, 0
  {
    if n in r.containedBeanMap then
      var r' := r.(containedBeanMap := r.containedBeanMap - {n});
      DetachContained(r, n);
      var t := DestroyEach(r', r.containedBeanMap[n]);
      ContainedDone(r, n, r', t.reg, t.log);
      Disposal(t.reg, t.log)
    else Disposal(r, [])
  }

  lemma ContainedDone(r: Registry, n: Name, r': Registry, after: Registry, log: seq<Name>)
    requires n in r.containedBeanMap && r' == r.(containedBeanMap := r.containedBeanMap - {n})
    requires Shrinks(r, r') && GraphSize(r') < GraphSize(r)
    requires Retires(r', after) && Logged(r', after, log, [])
    requires forall c :: c in r.containedBeanMap[n] ==> Gone(after, c)
    ensures Retires(r, after) && Logged(r, after, log, [])
    ensures n !in after.containedBeanMap
    ensures forall c :: c in Members(r.containedBeanMap, n) ==> Gone(after, c)
  {
    ShrinksTrans(r, r', after);
  }

  /** `destroySingleton` keeps the cache-tier invariant and the dependent sets proper. */
  lemma {:induction false} DestroySingletonKeeps(r: Registry, n: Name)
    requires TeardownInvariant(r)
    ensures TeardownInvariant(DestroySingleton(r, n).reg)
    decreases GraphSize(r), 2, 0
  {
    var bean := if n in r.disposableBeans then Some(r.disposableBeans[n]) else None;
    DestroyBeanKeeps(DetachSingleton(r, n), n, bean);
  }

  lemma {:induction false} DestroyEachKeeps(r: Registry, names: seq<Name>)
    requires TeardownInvariant(r)
    ensures TeardownInvariant(DestroyEach(r, names).reg)
    decreases GraphSize(r), 3, |names|
  {
    if names != [] {
      DestroySingletonKeeps(r, names[0]);
      DestroyEachKeeps(DestroySingleton(r, names[0]).reg, names[1..]);
    }
  }

  lemma {:induction false} DestroyBeanKeeps(r: Registry, n: Name, bean: Option<DisposableBean>)
    requires TeardownInvariant(r)
    ensures TeardownInvariant(DestroyBean(r, n, bean).reg)
    decreases GraphSize(r), 1, 0
  {
    DestroyDependentsKeeps(r, n);
    var t1 := DestroyDependents(r, n);
    DestroyContainedKeeps(t1.reg, n);
    ScrubBeanKeeps(DestroyContained(t1.reg, n).reg, n);
  }

  lemma {:induction false} DestroyDependentsKeeps(r: Registry, n: Name)
    requires TeardownInvariant(r)
    ensures TeardownInvariant(DestroyDependents(r, n).reg)
    decreases GraphSize(r), 0, 0
  {
    if n in r.dependentBeanMap {
      var r' := r.(dependentBeanMap := r.dependentBeanMap - {n});
      DependentEntrySmaller(r, n);
      CacheValidTransfer(r, r');
      DestroyEachKeeps(r', r.dependentBeanMap[n]);
    }
  }

  lemma {:induction false} DestroyContainedKeeps(r: Registry, n: Name)
    requires TeardownInvariant(r)
    ensures TeardownInvariant(DestroyContained(r, n).reg)
    decreases GraphSize(r), 0, 0
  {
    if n in r.containedBeanMap {
      var r' := r.(containedBeanMap := r.containedBeanMap - {n});
      ContainedEntrySmaller(r, n);
      CacheValidTransfer(r, r');
      DestroyEachKeeps(r', r.containedBeanMap[n]);
    }
  }

  // ---------------------------------------------------------------------------
  // What teardown leaves alone

  /** `b` is a dependent or a contained bean of `a`: destroying `a` destroys `b`. */
  ghost predicate Edge(r: Registry, a: Name, b: Name) {
    b in Members(r.dependentBeanMap, a) || b in Members(r.containedBeanMap, a)
  }

  /** No edge leaves `s`: a teardown started inside `s` stays inside it. */
  ghost predicate Closed(r: Registry, s: iset<Name>) {
    forall k, x :: k in s && Edge(r, k, x) ==> x in s
  }

  /**
   Name `u` has the same cache entries, the same disposable, the same contained
   beans and the same dependencies in `a` and in `b`.
   */
  ghost predicate Kept(a: Registry, b: Registry, u: Name) {
    && SameEntryAt(a, b, u)
    && (u in a.disposableBeans <==> u in b.disposableBeans)
    && (u in a.disposableBeans ==> b.disposableBeans[u] == a.disposableBeans[u])
    && Members(b.containedBeanMap, u) == Members(a.containedBeanMap, u)
    && Members(b.dependenciesForBeanMap, u) == Members(a.dependenciesForBeanMap, u)
  }

  /** Removing edges keeps a set closed. */
  lemma ClosedShrinks(a: Registry, b: Registry, s: iset<Name>)
    requires Closed(a, s) && GraphShrinks(a, b)
    ensures Closed(b, s)
  {
    forall k, x | k in s && Edge(b, k, x) ensures x in s {
      assert Edge(a, k, x);
    }
  }

  /** Every dependent of `u` outside `s` is still a dependent of `u` in `b`. */
  ghost predicate DependentsKept(a: Registry, b: Registry, u: Name, s: iset<Name>) {
    forall x :: x !in s && x in Members(a.dependentBeanMap, u) ==> x in Members(b.dependentBeanMap, u)
  }

  lemma DependentsKeptTrans(a: Registry, b: Registry, c: Registry, u: Name, s: iset<Name>)
    requires DependentsKept(a, b, u, s) && DependentsKept(b, c, u, s)
    ensures DependentsKept(a, c, u, s)
  {
  }

  /** Scrubbing a name of `s` keeps the dependents of `u` outside `s`, and keeps `u` itself. */
  lemma ScrubKeeps(r: Registry, n: Name, u: Name, s: iset<Name>)
    requires n in s && u !in s
    ensures DependentsKept(r, ScrubBean(r, n), u, s) && Kept(r, ScrubBean(r, n), u)
  {
    var r' := ScrubBean(r, n);
    forall x | x !in s && x in Members(r.dependentBeanMap, u)
      ensures x in Members(r'.dependentBeanMap, u)
    {
      assert x in r.dependentBeanMap[u];
    }
    if u in r.dependenciesForBeanMap {
      assert r'.dependenciesForBeanMap[u] == r.dependenciesForBeanMap[u];
    }
    SameCacheKept(r, r', u);
  }

  /** Dropping the dependent entry of `n` keeps every other name. */
  lemma DropDependentsKeeps(r: Registry, n: Name, u: Name, s: iset<Name>)
    requires u != n
    ensures var r' := r.(dependentBeanMap := r.dependentBeanMap - {n});
      DependentsKept(r, r', u, s) && Kept(r, r', u)
  {
    var r' := r.(dependentBeanMap := r.dependentBeanMap - {n});
    assert Members(r'.dependentBeanMap, u) == Members(r.dependentBeanMap, u);
    SameCacheKept(r, r', u);
  }

  /** Dropping the contained entry of `n` keeps every other name. */
  lemma DropContainedKeeps(r: Registry, n: Name, u: Name, s: iset<Name>)
    requires u != n
    ensures var r' := r.(containedBeanMap := r.containedBeanMap - {n});
      DependentsKept(r, r', u, s) && Kept(r, r', u)
  {
    var r' := r.(containedBeanMap := r.containedBeanMap - {n});
    assert Members(r'.containedBeanMap, u) == Members(r.containedBeanMap, u);
    SameCacheKept(r, r', u);
  }

  lemma KeptTrans(a: Registry, b: Registry, c: Registry, u: Name)
    requires Kept(a, b, u) && Kept(b, c, u)
    ensures Kept(a, c, u)
  {
  }

  /** A step that leaves the tiers, the disposables and the entries of `u` alone keeps `u`. */
  lemma SameCacheKept(a: Registry, b: Registry, u: Name)
    requires SameCache(a, b) && a.disposableBeans == b.disposableBeans
    requires Members(b.containedBeanMap, u) == Members(a.containedBeanMap, u)
    requires Members(b.dependenciesForBeanMap, u) == Members(a.dependenciesForBeanMap, u)
    ensures Kept(a, b, u)
  {
  }

  /** Detaching `n` keeps every other name. */
  lemma DetachKeeps(r: Registry, n: Name, u: Name)
    requires u != n
    ensures Kept(r, DetachSingleton(r, n), u)
  {
  }

  /**
   `destroySingleton` stays inside any edge-closed set holding `n`: a name `u`
   outside it is kept, keeps its dependents outside the set, and is not logged.
   */
  lemma {:induction false} DestroySingletonSpares(r: Registry, n: Name, s: iset<Name>, u: Name)
    requires Closed(r, s) && n in s && u !in s
    ensures var t := DestroySingleton(r, n); Kept(r, t.reg, u) && u !in t.log
    ensures var t := DestroySingleton(r, n); DependentsKept(r, t.reg, u, s)
    decreases GraphSize(r), 2, 0
  {
    var bean := if n in r.disposableBeans then Some(r.disposableBeans[n]) else None;
    var r2 := DetachSingleton(r, n);
    DetachKeeps(r, n, u);
    ClosedShrinks(r, r2, s);
    DestroyBeanSpares(r2, n, bean, s, u);
    var t := DestroyBean(r2, n, bean);
    assert DestroySingleton(r, n) == t;
    KeptTrans(r, r2, t.reg, u);
    assert DependentsKept(r, r2, u, s);
    DependentsKeptTrans(r, r2, t.reg, u, s);
  }

  /** `destroyBean` stays inside any edge-closed set holding `n`. */
  lemma {:induction false} DestroyBeanSpares(r: Registry, n: Name, bean: Option<DisposableBean>, s: iset<Name>, u: Name)
    requires Closed(r, s) && n in s && u !in s
    ensures var t := DestroyBean(r, n, bean); Kept(r, t.reg, u) && u !in t.log
    ensures var t := DestroyBean(r, n, bean); DependentsKept(r, t.reg, u, s)
    decreases GraphSize(r), 1, 0
  {
    var t1 := DestroyDependents(r, n);
    DestroyDependentsSpares(r, n, s, u);
    ClosedShrinks(r, t1.reg, s);
    var t3 := DestroyContained(t1.reg, n);
    DestroyContainedSpares(t1.reg, n, s, u);
    var r5 := ScrubBean(t3.reg, n);
    ScrubKeeps(t3.reg, n, u, s);
    KeptTrans(r, t1.reg, t3.reg, u);
    KeptTrans(r, t3.reg, r5, u);
    DependentsKeptTrans(r, t1.reg, t3.reg, u, s);
    DependentsKeptTrans(r, t3.reg, r5, u, s);
    assert DestroyBean(r, n, bean) == Disposal(r5, t1.log + Own(n, bean) + t3.log);
    assert u !in t1.log + Own(n, bean) + t3.log;
  }

  /** The dependents phase stays inside any edge-closed set holding `n`. */
  lemma {:induction false} DestroyDependentsSpares(r: Registry, n: Name, s: iset<Name>, u: Name)
    requires Closed(r, s) && n in s && u !in s
    ensures var t := DestroyDependents(r, n); Kept(r, t.reg, u) && u !in t.log
    ensures var t := DestroyDependents(r, n); DependentsKept(r, t.reg, u, s)
    decreases GraphSize(r), 0, 0
  {
    if n in r.dependentBeanMap {
      var r' := r.(dependentBeanMap := r.dependentBeanMap - {n});
      DetachDependents(r, n);
      ClosedShrinks(r, r', s);
      var deps := r.dependentBeanMap[n];
      forall x | x in deps ensures x in s {
        assert Edge(r, n, x);
      }
      DestroyEachSpares(r', deps, s, u);
      var t := DestroyEach(r', deps);
      DropDependentsKeeps(r, n, u, s);
      KeptTrans(r, r', t.reg, u);
      DependentsKeptTrans(r, r', t.reg, u, s);
      assert DestroyDependents(r, n) == Disposal(t.reg, t.log);
    }
  }

  /** The contained phase stays inside any edge-closed set holding `n`. */
  lemma {:induction false} DestroyContainedSpares(r: Registry, n: Name, s: iset<Name>, u: Name)
    requires Closed(r, s) && n in s && u !in s
    ensures var t := DestroyContained(r, n); Kept(r, t.reg, u) && u !in t.log
    ensures var t := DestroyContained(r, n); DependentsKept(r, t.reg, u, s)
    decreases GraphSize(r), 0, 0
  {
    if n in r.containedBeanMap {
      var r' := r.(containedBeanMap := r.containedBeanMap - {n});
      DetachContained(r, n);
      ClosedShrinks(r, r', s);
      var kids := r.containedBeanMap[n];
      forall x | x in kids ensures x in s {
        assert Edge(r, n, x);
      }
      DestroyEachSpares(r', kids, s, u);
      var t := DestroyEach(r', kids);
      DropContainedKeeps(r, n, u, s);
      KeptTrans(r, r', t.reg, u);
      DependentsKeptTrans(r, r', t.reg, u, s);
      assert DestroyContained(r, n) == Disposal(t.reg, t.log);
    }
  }

  /** Destroying names of an edge-closed set one by one stays inside it. */
  lemma {:induction false} DestroyEachSpares(r: Registry, names: seq<Name>, s: iset<Name>, u: Name)
    requires Closed(r, s) && u !in s && forall x :: x in names ==> x in s
    ensures var t := DestroyEach(r, names); Kept(r, t.reg, u) && u !in t.log
    ensures var t := DestroyEach(r, names); DependentsKept(r, t.reg, u, s)
    decreases GraphSize(r), 3, |names|
  {
    if names != [] {
      var t1 := DestroySingleton(r, names[0]);
      DestroySingletonSpares(r, names[0], s, u);
      ClosedShrinks(r, t1.reg, s);
      DestroyEachSpares(t1.reg, names[1..], s, u);
      var t2 := DestroyEach(t1.reg, names[1..]);
      KeptTrans(r, t1.reg, t2.reg, u);
      DependentsKeptTrans(r, t1.reg, t2.reg, u, s);
      assert DestroyEach(r, names) == Disposal(t2.reg, t1.log + t2.log);
    }
  }

  /** A walk along teardown edges of `r`, possibly of no edge at all. */
  ghost predicate TeardownPath(r: Registry, p: seq<Name>) {
    |p| >= 1 && forall i :: 0 <= i < |p| - 1 ==> Edge(r, p[i], p[i + 1])
  }

  /** Tearing down `n` may reach `u`: `u` is `n` or lies along its edges. */
  ghost predicate Reaches(r: Registry, n: Name, u: Name) {
    exists p :: TeardownPath(r, p) && p[0] == n && p[|p| - 1] == u
  }

  /** Tearing down one of `names` may reach `u`. */
  ghost predicate ReachedFrom(r: Registry, names: seq<Name>, u: Name) {
    exists x :: x in names && Reaches(r, x, u)
  }

  lemma ReachesStep(r: Registry, n: Name, k: Name, x: Name)
    requires Reaches(r, n, k) && Edge(r, k, x)
    ensures Reaches(r, n, x)
  {
    var p :| TeardownPath(r, p) && p[0] == n && p[|p| - 1] == k;
    var q := p + [x];
    forall i | 0 <= i < |q| - 1 ensures Edge(r, q[i], q[i + 1]) {
      if i < |p| - 1 {
        assert q[i] == p[i] && q[i + 1] == p[i + 1];
      }
    }
    assert TeardownPath(r, q) && q[0] == n && q[|q| - 1] == x;
  }

  /**
   `destroySingleton(n)` leaves every name that `n` does not reach along
   dependent and contained edges with its cache entries, its disposable, its
   contained beans, its dependencies and its dependents that `n` does not
   reach either, and does not destroy it.
   */
  lemma DestroySingletonUnreached(r: Registry, n: Name, u: Name)
    requires !Reaches(r, n, u)
    ensures var t := DestroySingleton(r, n); Kept(r, t.reg, u) && u !in t.log
    ensures var t := DestroySingleton(r, n);
      forall x :: !Reaches(r, n, x) && x in Members(r.dependentBeanMap, u) ==> x in Members(t.reg.dependentBeanMap, u)
  {
    var s := iset x | Reaches(r, n, x);
    assert TeardownPath(r, [n]);
    forall k, x | k in s && Edge(r, k, x) ensures x in s {
      ReachesStep(r, n, k, x);
    }
    DestroySingletonSpares(r, n, s, u);
  }

  /**
   Destroying `names` one by one leaves every name none of them reaches as
   `DestroySingletonUnreached` states for one name, and does not destroy it.
   */
  lemma DestroyEachUnreached(r: Registry, names: seq<Name>, u: Name)
    requires forall x :: x in names ==> !Reaches(r, x, u)
    ensures var t := DestroyEach(r, names); Kept(r, t.reg, u) && u !in t.log
    ensures var t := DestroyEach(r, names);
      forall x :: !ReachedFrom(r, names, x) && x in Members(r.dependentBeanMap, u) ==>
        x in Members(t.reg.dependentBeanMap, u)
  {
    var s := iset y | ReachedFrom(r, names, y);
    forall x | x in names ensures x in s {
      assert TeardownPath(r, [x]);
    }
    forall k, y | k in s && Edge(r, k, y) ensures y in s {
      var x :| x in names && Reaches(r, x, k);
      ReachesStep(r, x, k, y);
    }
    DestroyEachSpares(r, names, s, u);
  }

  // ---------------------------------------------------------------------------
  // Dependents are destroyed before the beans they depend on

  /**
   `d` depends on `a`, both are still disposable, and the edge-closed set `s`
   holds `d` but not `a`, so nothing `d` reaches is `a`.
   */
  ghost predicate Pending(r: Registry, a: Name, d: Name, s: iset<Name>) {
    && a != d && a in r.disposableBeans && d in r.disposableBeans
    && d in Members(r.dependentBeanMap, a) && Closed(r, s) && d in s && a !in s
  }

  /**
   A step ending in `b` with log `log` destroys `d` before `a` when it destroys
   `a`, and when it destroys neither, leaves the pair pending.
   */
  ghost predicate InOrder(b: Registry, log: seq<Name>, a: Name, d: Name, s: iset<Name>) {
    && (a in log ==> Precedes(log, d, a))
    && (a !in log && d !in log ==> Pending(b, a, d, s))
  }

  /** Two steps in order make one. */
  lemma InOrderTrans(b1: Registry, b2: Registry, log1: seq<Name>, log2: seq<Name>, a: Name, d: Name, s: iset<Name>)
    requires InOrder(b1, log1, a, d, s)
    requires a !in log1 && d !in log1 ==> InOrder(b2, log2, a, d, s)
    ensures InOrder(b2, log1 + log2, a, d, s)
  {
    if a in log1 {
      IndexOfAppend(log1, log2, a);
      IndexOfAppend(log1, log2, d);
    } else if a in log2 {
      IndexOfAfter(log1, log2, a);
      if d in log1 {
        IndexOfAppend(log1, log2, d);
      } else {
        IndexOfAfter(log1, log2, d);
      }
    }
  }

  /** A bean logged right after steps that did not log it precedes whatever comes after it. */
  lemma OwnFirst(log1: seq<Name>, x: Name, log3: seq<Name>, y: Name)
    requires x !in log1 && y !in log1 && y != x && y in log1 + [x] + log3
    ensures Precedes(log1 + [x] + log3, x, y)
  {
    IndexOfAfter(log1, [x], x);
    IndexOfAppend(log1 + [x], log3, x);
    IndexOfAfter(log1 + [x], log3, y);
  }

  /**
   Destroying the dependent `d` itself: the dependents phase of `d` stays
   inside `s`, so it does not reach `a`, and if `a` goes at all it goes after `d`.
   */
  lemma DependentFirst(r: Registry, a: Name, d: Name, s: iset<Name>)
    requires Pending(r, a, d, s)
    ensures var t := DestroySingleton(r, d); InOrder(t.reg, t.log, a, d, s)
  {
    var bean := r.disposableBeans[d];
    var r2 := DetachSingleton(r, d);
    assert DestroySingleton(r, d) == DestroyBean(r2, d, Some(bean));
    ClosedShrinks(r, r2, s);
    var t1 := DestroyDependents(r2, d);
    DestroyDependentsSpares(r2, d, s, a);
    var t3 := DestroyContained(t1.reg, d);
    var log := t1.log + [d] + t3.log;
    assert DestroyBean(r2, d, Some(bean)).log == log;
    if a in log {
      OwnFirst(t1.log, d, t3.log, a);
    }
  }

  /**
   `destroySingleton` keeps a pending pair in order: a dependent `d` of `a` is
   destroyed before `a`, or neither is destroyed and the pair stays pending.
   */
  lemma {:induction false} DestroySingletonOrder(r: Registry, n: Name, a: Name, d: Name, s: iset<Name>)
    requires Pending(r, a, d, s)
    ensures var t := DestroySingleton(r, n); InOrder(t.reg, t.log, a, d, s)
    decreases GraphSize(r), 2, 0
  {
    if n == a {
      DependentsBeforeSingleton(r, a, d);
    } else if n == d {
      DependentFirst(r, a, d, s);
    } else {
      var bean := if n in r.disposableBeans then Some(r.disposableBeans[n]) else None;
      var r2 := DetachSingleton(r, n);
      ClosedShrinks(r, r2, s);
      assert Pending(r2, a, d, s);
      DestroyBeanOrder(r2, n, bean, a, d, s);
      assert DestroySingleton(r, n) == DestroyBean(r2, n, bean);
    }
  }

  /** `destroyBean` of a third name keeps a pending pair in order. */
  lemma {:induction false} DestroyBeanOrder(r: Registry, n: Name, bean: Option<DisposableBean>, a: Name, d: Name,
                                            s: iset<Name>)
    requires Pending(r, a, d, s) && n != a && n != d
    ensures var t := DestroyBean(r, n, bean); InOrder(t.reg, t.log, a, d, s)
    decreases GraphSize(r), 1, 0
  {
    var t1 := DestroyDependents(r, n);
    DestroyDependentsOrder(r, n, a, d, s);
    var own := Own(n, bean);
    var t3 := DestroyContained(t1.reg, n);
    if a !in t1.log && d !in t1.log {
      DestroyContainedOrder(t1.reg, n, a, d, s);
    }
    var r5 := ScrubBean(t3.reg, n);
    ScrubPending(t3.reg, n, a, d, s);
    BeanInOrder(t1.reg, t3.reg, r5, t1.log, own, t3.log, n, a, d, s);
    assert DestroyBean(r, n, bean) == Disposal(r5, t1.log + own + t3.log);
  }

  /** The three phases of `destroyBean` of a third name `n`, each in order, make one. */
  lemma BeanInOrder(b1: Registry, b3: Registry, b5: Registry, log1: seq<Name>, own: seq<Name>, log3: seq<Name>,
                    n: Name, a: Name, d: Name, s: iset<Name>)
    requires n != a && n != d && (own == [] || own == [n])
    requires InOrder(b1, log1, a, d, s)
    requires a !in log1 && d !in log1 ==> InOrder(b3, log3, a, d, s)
    requires Pending(b3, a, d, s) ==> Pending(b5, a, d, s)
    ensures InOrder(b5, log1 + own + log3, a, d, s)
  {
    InOrderTrans(b1, b1, log1, own, a, d, s);
    InOrderTrans(b1, b3, log1 + own, log3, a, d, s);
  }

  /** Scrubbing a name other than `d` keeps the pair pending. */
  lemma ScrubPending(r: Registry, n: Name, a: Name, d: Name, s: iset<Name>)
    requires n != d
    ensures Pending(r, a, d, s) ==> Pending(ScrubBean(r, n), a, d, s)
  {
    var r' := ScrubBean(r, n);
    if Pending(r, a, d, s) {
      assert d in r.dependentBeanMap[a];
      ClosedShrinks(r, r', s);
    }
  }

  /** The dependents phase of a name other than `a` keeps a pending pair in order. */
  lemma {:induction false} DestroyDependentsOrder(r: Registry, n: Name, a: Name, d: Name, s: iset<Name>)
    requires Pending(r, a, d, s) && n != a
    ensures var t := DestroyDependents(r, n); InOrder(t.reg, t.log, a, d, s)
    decreases GraphSize(r), 0, 0
  {
    if n in r.dependentBeanMap {
      var r' := r.(dependentBeanMap := r.dependentBeanMap - {n});
      DetachDependents(r, n);
      ClosedShrinks(r, r', s);
      assert Members(r'.dependentBeanMap, a) == Members(r.dependentBeanMap, a);
      DestroyEachOrder(r', r.dependentBeanMap[n], a, d, s);
      var t := DestroyEach(r', r.dependentBeanMap[n]);
      assert DestroyDependents(r, n) == Disposal(t.reg, t.log);
    }
  }

  /** The contained phase keeps a pending pair in order. */
  lemma {:induction false} DestroyContainedOrder(r: Registry, n: Name, a: Name, d: Name, s: iset<Name>)
    requires Pending(r, a, d, s)
    ensures var t := DestroyContained(r, n); InOrder(t.reg, t.log, a, d, s)
    decreases GraphSize(r), 0, 0
  {
    if n in r.containedBeanMap {
      var r' := r.(containedBeanMap := r.containedBeanMap - {n});
      DetachContained(r, n);
      ClosedShrinks(r, r', s);
      DestroyEachOrder(r', r.containedBeanMap[n], a, d, s);
      var t := DestroyEach(r', r.containedBeanMap[n]);
      assert DestroyContained(r, n) == Disposal(t.reg, t.log);
    }
  }

  /** Destroying names one by one keeps a pending pair in order. */
  lemma {:induction false} DestroyEachOrder(r: Registry, names: seq<Name>, a: Name, d: Name, s: iset<Name>)
    requires Pending(r, a, d, s)
    ensures var t := DestroyEach(r, names); InOrder(t.reg, t.log, a, d, s)
    decreases GraphSize(r), 3, |names|
  {
    if names != [] {
      var t1 := DestroySingleton(r, names[0]);
      DestroySingletonOrder(r, names[0], a, d, s);
      if a !in t1.log && d !in t1.log {
        DestroyEachOrder(t1.reg, names[1..], a, d, s);
      }
      var t2 := DestroyEach(t1.reg, names[1..]);
      InOrderTrans(t1.reg, t2.reg, t1.log, t2.log, a, d, s);
      assert DestroyEach(r, names) == Disposal(t2.reg, t1.log + t2.log);
    }
  }

  /**
   `destroySingletons`: a bean `d` that depends on `a` is destroyed before `a`,
   unless `d` reaches `a` back along dependent and contained edges.
   */
  lemma DestroySingletonsOrder(r: Registry, a: Name, d: Name)
    requires DisposalValid(r)
    requires a in r.disposableBeans && d in r.disposableBeans && a != d
    requires d in Members(r.dependentBeanMap, a) && !Reaches(r, d, a)
    ensures Precedes(DestroySingletons(r).log, d, a)
  {
    var s := iset x | Reaches(r, d, x);
    assert TeardownPath(r, [d]);
    forall k, x | k in s && Edge(r, k, x) ensures x in s {
      ReachesStep(r, d, k, x);
    }
    var marked := r.(singletonsCurrentlyInDestruction := true);
    ClosedShrinks(r, marked, s);
    DestroyEachOrder(marked, Reverse(marked.disposableOrder), a, d, s);
    assert DestroySingletons(r).log == DestroyEach(marked, Reverse(marked.disposableOrder)).log;
  }

  /** With no disposable left, the disposable order is empty as well. */
  lemma NothingLeft(r: Registry)
    requires DisposalValid(r) && forall x :: x !in r.disposableBeans
    ensures r.disposableBeans == map[] && r.disposableOrder == []
  {
    assert r.disposableBeans.Keys == {};
    assert (set x | x in r.disposableOrder) == {};
    NoDupCard(r.disposableOrder);
  }

  /**
   `destroySingletons`: marks the destruction phase, destroys every disposable
   bean in reverse registration order, clears the graph and then the cache.
   Every disposable is destroyed exactly once, nothing is left behind, and the
   destruction phase is over again afterwards.
   */
  function DestroySingletons(r: Registry): (t: Disposal)
    ensures t.reg.singletonObjects == map[] && t.reg.singletonFactories == map[]
    ensures t.reg.earlySingletonObjects == map[] && t.reg.registeredSingletons == []
    ensures t.reg.containedBeanMap == map[] && t.reg.dependentBeanMap == map[]
    ensures t.reg.dependenciesForBeanMap == map[]
    ensures !t.reg.singletonsCurrentlyInDestruction
    ensures t.reg.singletonsCurrentlyInCreation == r.singletonsCurrentlyInCreation
    ensures t.reg.inCreationCheckExclusions == r.inCreationCheckExclusions
    ensures t.reg.suppressedExceptions == r.suppressedExceptions
    ensures NoDup(t.log) && forall x :: x in t.log ==> x in r.disposableBeans
    ensures DisposalValid(r) ==> forall x :: x in r.disposableBeans ==> x in t.log
    ensures DisposalValid(r) ==> t.reg.disposableBeans == map[] && t.reg.disposableOrder == []
  {
    var marked := r.(singletonsCurrentlyInDestruction := true);
    var names := Reverse(marked.disposableOrder);
    var t := DestroyEach(marked, names);
    var cleared := t.reg.(containedBeanMap := map[], dependentBeanMap := map[], dependenciesForBeanMap := map[]);
    ReverseKeeps(marked.disposableOrder);
    assert DisposalValid(r) ==> t.reg.disposableBeans == map[] && t.reg.disposableOrder == [] by {
      if DisposalValid(r) {
        assert forall x :: x !in t.reg.disposableBeans;
        NothingLeft(t.reg);
      }
    }
    Disposal(ClearSingletonCache(cleared), t.log)
  }

  /** After `destroySingletons` a valid registry is valid again, with nothing left in it. */
  lemma DestroySingletonsValid(r: Registry)
    requires Valid(r)
    ensures Valid(DestroySingletons(r).reg)
  {
  }

  /**
   `destroyBean` with its disposable already detached: every dependent of `n`
   that still has a disposable is destroyed before `n`.
   */
  lemma DependentsBeforeBean(r: Registry, n: Name, bean: DisposableBean, d: Name)
    requires n !in r.disposableBeans
    requires d in Members(r.dependentBeanMap, n) && d in r.disposableBeans
    ensures Precedes(DestroyBean(r, n, Some(bean)).log, d, n)
  {
    var t1 := DestroyDependents(r, n);
    var t3 := DestroyContained(t1.reg, n);
    assert DestroyBean(r, n, Some(bean)).log == (t1.log + [n]) + t3.log;
    assert d in t1.log;
    assert n !in t1.log;
    IndexOfAppend(t1.log, [n], d);
    IndexOfAfter(t1.log, [n], n);
    IndexOfAppend(t1.log + [n], t3.log, d);
    IndexOfAppend(t1.log + [n], t3.log, n);
  }

  /**
   `destroyBean` with its disposable already detached: every bean `n` contains
   that still has a disposable is destroyed, after `n` unless it was already
   destroyed as one of the dependents of `n`.
   */
  lemma ContainedAfterBean(r: Registry, n: Name, bean: DisposableBean, c: Name)
    requires n !in r.disposableBeans
    requires c in Members(r.containedBeanMap, n) && c in r.disposableBeans
    ensures c in DestroyBean(r, n, Some(bean)).log
    ensures c !in DestroyDependents(r, n).log ==> Precedes(DestroyBean(r, n, Some(bean)).log, n, c)
  {
    var t1 := DestroyDependents(r, n);
    var t3 := DestroyContained(t1.reg, n);
    var log := (t1.log + [n]) + t3.log;
    assert DestroyBean(r, n, Some(bean)) == Disposal(ScrubBean(t3.reg, n), log);
    if c !in t1.log {
      assert c in t1.reg.disposableBeans;
      assert c in Members(t1.reg.containedBeanMap, n);
      assert c in t3.log;
      assert n !in t1.log;
      IndexOfAfter(t1.log, [n], n);
      IndexOfAppend(t1.log + [n], t3.log, n);
      IndexOfAfter(t1.log + [n], t3.log, c);
    }
  }

  /** `destroySingleton`: the dependents of `n` that have a disposable are destroyed before `n`. */
  lemma DependentsBeforeSingleton(r: Registry, n: Name, d: Name)
    requires n in r.disposableBeans
    requires d in Members(r.dependentBeanMap, n) && d in r.disposableBeans && d != n
    ensures Precedes(DestroySingleton(r, n).log, d, n)
  {
    var r2 := DetachSingleton(r, n);
    assert DestroySingleton(r, n) == DestroyBean(r2, n, Some(r.disposableBeans[n]));
    DependentsBeforeBean(r2, n, r.disposableBeans[n], d);
  }

  /**
   `destroySingleton`: the beans `n` contains that have a disposable are
   destroyed, after `n` unless they are among its dependents' casualties.
   */
  lemma ContainedAfterSingleton(r: Registry, n: Name, c: Name)
    requires n in r.disposableBeans
    requires c in Members(r.containedBeanMap, n) && c in r.disposableBeans && c != n
    ensures c in DestroySingleton(r, n).log
    ensures c !in DestroyDependents(DetachSingleton(r, n), n).log ==>
      Precedes(DestroySingleton(r, n).log, n, c)
  {
    var r2 := DetachSingleton(r, n);
    assert DestroySingleton(r, n) == DestroyBean(r2, n, Some(r.disposableBeans[n]));
    ContainedAfterBean(r2, n, r.disposableBeans[n], c);
  }

  /** A retiring step keeps every remaining dependent edge mirrored. */
  lemma RetiresMirrored(a: Registry, b: Registry)
    requires Retires(a, b) && Mirrored(a)
    ensures Mirrored(b)
  {
    forall x, y | x in b.dependentBeanMap && y in b.dependentBeanMap[x]
      ensures x in Members(b.dependenciesForBeanMap, y)
    {
      assert y in a.dependentBeanMap[x];
      assert x in Members(a.dependenciesForBeanMap, y);
    }
  }

  /** A retiring step that keeps the teardown invariant keeps the whole registry invariant. */
  lemma RetiresValid(a: Registry, b: Registry)
    requires Valid(a) && Retires(a, b) && TeardownInvariant(b)
    ensures Valid(b)
  {
    RetiresMirrored(a, b);
  }

  /** `destroySingleton` keeps the registry invariant. */
  lemma DestroySingletonValid(r: Registry, n: Name)
    requires Valid(r)
    ensures Valid(DestroySingleton(r, n).reg)
  {
    DestroySingletonKeeps(r, n);
    RetiresValid(r, DestroySingleton(r, n).reg);
  }

  /** A second `destroySingletons` finds nothing to destroy and changes nothing. */
  lemma DestroySingletonsTwice(r: Registry)
    requires DisposalValid(r)
    ensures var t := DestroySingletons(r); DestroySingletons(t.reg) == Disposal(t.reg, [])
  {
    var t := DestroySingletons(r);
    assert Reverse(t.reg.disposableOrder) == [];
  }

  /** Without dependency or containment edges, destroying a singleton destroys exactly its own disposable. */
  lemma DestroySingletonFlat(r: Registry, n: Name)
    requires r.dependentBeanMap == map[] && r.containedBeanMap == map[]
    requires n in r.disposableBeans
    ensures DestroySingleton(r, n).log == [n]
    ensures DestroySingleton(r, n).reg.dependentBeanMap == map[]
    ensures DestroySingleton(r, n).reg.containedBeanMap == map[]
  {
    var r2 := DetachSingleton(r, n);
    assert DestroySingleton(r, n) == DestroyBean(r2, n, Some(r.disposableBeans[n]));
    DestroyBeanFlat(r2, n, Some(r.disposableBeans[n]));
  }

  /** Without edges, `destroyBean` destroys only the bean itself. */
  lemma DestroyBeanFlat(r: Registry, n: Name, bean: Option<DisposableBean>)
    requires r.dependentBeanMap == map[] && r.containedBeanMap == map[]
    ensures DestroyBean(r, n, bean).log == Own(n, bean)
    ensures DestroyBean(r, n, bean).reg.dependentBeanMap == map[]
    ensures DestroyBean(r, n, bean).reg.containedBeanMap == map[]
  {
    assert DestroyDependents(r, n) == Disposal(r, []);
    assert DestroyContained(r, n) == Disposal(r, []);
    ScrubEmpty(n);
    assert DestroyBean(r, n, bean) == Disposal(ScrubBean(r, n), [] + Own(n, bean) + []);
  }

  lemma ScrubEmpty(n: Name)
    ensures Scrub(map[], n) == map[]
  {
    assert forall k :: k !in Scrub(map[], n);
  }

  /** Without edges, destroying distinct disposable names one by one logs them in that order. */
  lemma {:induction false} DestroyEachFlat(r: Registry, names: seq<Name>)
    requires r.dependentBeanMap == map[] && r.containedBeanMap == map[]
    requires NoDup(names) && forall x :: x in names ==> x in r.disposableBeans
    ensures DestroyEach(r, names).log == names
    decreases |names|
  {
    if names != [] {
      NoDupTail(names);
      FlatStep(r, names[0], names[1..]);
      var t1 := DestroySingleton(r, names[0]);
      DestroyEachFlat(t1.reg, names[1..]);
      var tail := DestroyEach(t1.reg, names[1..]).log;
      DestroyEachUnfold(r, names);
      HeadAndTail(names, t1.log, tail, DestroyEach(r, names).log);
    }
  }

  /** One step of `DestroyEachFlat`: the head is destroyed alone and the rest stay disposable. */
  lemma FlatStep(r: Registry, n: Name, rest: seq<Name>)
    requires r.dependentBeanMap == map[] && r.containedBeanMap == map[]
    requires n in r.disposableBeans && n !in rest
    requires forall x :: x in rest ==> x in r.disposableBeans
    ensures var t1 := DestroySingleton(r, n);
      && t1.log == [n] && t1.reg.dependentBeanMap == map[] && t1.reg.containedBeanMap == map[]
      && forall x :: x in rest ==> x in t1.reg.disposableBeans
  {
    DestroySingletonFlat(r, n);
    StillDisposable(r, DestroySingleton(r, n).reg, n, rest);
  }

  lemma DestroyEachUnfold(r: Registry, names: seq<Name>)
    requires names != []
    ensures DestroyEach(r, names).log
      == DestroySingleton(r, names[0]).log + DestroyEach(DestroySingleton(r, names[0]).reg, names[1..]).log
  {
  }

  /** A step that destroyed only `n` leaves the other disposables in place. */
  lemma StillDisposable(a: Registry, b: Registry, n: Name, rest: seq<Name>)
    requires Logged(a, b, [n], [])
    requires n !in rest
    requires forall x :: x in rest ==> x in a.disposableBeans
    ensures forall x :: x in rest ==> x in b.disposableBeans
  {
  }

  /**
   Without dependency or containment edges, `destroySingletons` destroys the
   disposables in exactly the reverse of their registration order.
   */
  lemma DestroySingletonsReverseOrder(r: Registry)
    requires DisposalValid(r)
    requires r.dependentBeanMap == map[] && r.containedBeanMap == map[]
    ensures DestroySingletons(r).log == Reverse(r.disposableOrder)
  {
    var marked := r.(singletonsCurrentlyInDestruction := true);
    ReverseKeeps(r.disposableOrder);
    DestroyEachFlat(marked, Reverse(r.disposableOrder));
  }

  /**
   Sequence reassembly with no registry in scope: stated on its own so that
   `DestroyEachFlat` does not make the solver rebuild it next to the registry terms.
   */
  lemma HeadAndTail(names: seq<Name>, head: seq<Name>, tail: seq<Name>, whole: seq<Name>)
    requires names != [] && head == [names[0]] && tail == names[1..] && whole == head + tail
    ensures whole == names
  {
  }
}

=== FILE: wrappers.dfy ===
/** Option and Result, the model's replacement for Java's nulls and exceptions. */
module Wrappers {

  datatype Option<+T> = None | Some(value: T)

  /** The outcome of an operation that either completes or throws. */
  datatype Result<+R, +E> = Success(value: R) | Failure(error: E)
}
